=== FILE: README.md ===
# sveltesnaps core, modelled in Dafny

A model of the server side of a small photo-sharing site. It covers two parts.

- **The database module**: logging in (upserting an account by name and minting a session, in one transaction), logging out, resolving a session token or a name to an account, inserting a photo, listing an account's ten most recent photos with distinct like and comment counts, and fetching one photo's details with its comments and likers.
- **The upload action**: the 401 and 422 guards, the storage key built from the file extension, the insert, and the 303 redirect to the new photo.

The database is an immutable `Store` value holding five tables: `account`, `session`, `photo`, `likes` and `comment`. Each table is a sequence of rows. Every query is a pure function of the store. Every write returns the new store. The ids the database generates and its `now()` are inputs. The object-store upload is a parameter that maps a key to the URL the store returns. The action's `Reply` also lists the keys it handed to the upload, so the order of the guards and the upload is part of its contract.

Files:

- `wrappers.dfy`: `Option` and `Result`.
- `sorting.dfy`: the descending sort behind `ORDER BY … DESC`.
- `tables.dfy`: rows, the store, the table constraints (`Valid`) and the lookups by id and by name.
- `database.dfy`: the exported queries and transitions.
- `properties.dfy`: lemmas that relate several operations.
- `text.dfy`: `split`, the file extension, and the decimal form of the clock.
- `page_server.dfy`: the upload action.
- `route_properties.dfy`: the link from the redirect to the photo-details query.

The table definitions are not part of this model. `Tables.Valid` states the constraints the queries rely on:

- primary keys on account, session, photo and comment;
- `UNIQUE (name)` on account, which `ON CONFLICT (name)` needs;
- foreign keys from session, photo, likes and comment.

Lemmas that need a single answer from a lookup assume `Valid` and fresh generated ids. They prove that `Valid` is kept by login, logout, `create_photo`, and the upload action, both as written and corrected.

## Model

| member | source | states |
|---|---|---|
| `Database.GetAccountFromName` | src/lib/server/database.ts:9-12 | The result is present exactly when some account has that name, and then it is an account with that name. |
| `Tables.AccountByNameFinds` | src/lib/server/database.ts:9-12 | Under the unique name constraint, the lookup by name returns exactly that account. |
| `Database.SessionJoin` | src/lib/server/database.ts:15-20 | The inner join finds an account exactly when some session with the token references an existing account, and then the returned account is one that such a session references. |
| `Database.GetAccountFromSessionId` | src/lib/server/database.ts:14-23 | The result is absent both for an unknown token and for a session whose account row is missing. Otherwise it is an account that a session with this token references. |
| `Properties.SessionResolves` | src/lib/server/database.ts:14-23 | Under the primary keys, a session's token resolves to exactly the account the session references. |
| `Database.UpsertAccount` | src/lib/server/database.ts:87-92 | If the name is taken, ids and names stay, only rows with that name get the new avatar, and the id of the existing row is returned. Otherwise exactly one row with the fresh id is appended. Either way the returned id carries the name and the new avatar. |
| `Properties.UpsertKeepsKeys` | src/lib/server/database.ts:87-92 | The upsert keeps account ids and names unique and drops no id. |
| `Properties.UpsertExisting` | src/lib/server/database.ts:87-92 | Upserting a taken name returns that account's id, adds no row, gives that account the new avatar, and leaves every other row in place. |
| `Database.Login` | src/lib/server/database.ts:85-104 | The transaction is atomic. If a statement fails, the store is exactly as before and an error is returned. On success it returns the fresh session id, appends exactly one session for the upserted account, keeps earlier sessions as they were, and touches no photo, like or comment. |
| `Database.LoginBody` | src/lib/server/database.ts:87-102 | The two statements fail exactly when a fault is injected, with a driver error. On success the accounts are the upsert's, one session for the upserted id is appended, the fresh session id is returned, and no other table changes. |
| `Database.Begin` | src/lib/server/database.ts:86 | `sql.begin` commits the body's store and value on success. On failure it returns the body's error and keeps the store it started from. |
| `Properties.LoginPreservesValid` | src/lib/server/database.ts:85-104 | With fresh generated ids, login keeps every table constraint. In particular it keeps at most one account per name. |
| `Properties.LoginThenResolve` | src/lib/server/database.ts:94-102 | The session id login returns resolves to the logged-in account. Looking its name up finds the same account, which carries the given avatar. |
| `Properties.LoginReusesAccount` | src/lib/server/database.ts:87-96 | Logging in under an existing name adds no account. The new session references the existing id, only that account's avatar changes, and every other account stays. |
| `Properties.LoginTwice` | src/lib/server/database.ts:85-104 | For `login(N, A1)` then `login(N, A2)`, both sessions resolve to the same account id. That account now has avatar `A2`, and the second login adds no account. |
| `Database.RemoveSession` | src/lib/server/database.ts:107-110 | A session survives exactly when it was there and its id differs from the token. With no such session the table is unchanged. |
| `Database.Logout` | src/lib/server/database.ts:106-111 | Only sessions with the token are removed, and no other table changes. Logout is a no-op when no such session exists. Afterwards the token resolves to no account. |
| `Properties.LogoutIdempotent` | src/lib/server/database.ts:106-111 | Logging out twice is the same as logging out once. |
| `Properties.LogoutKeepsOtherSessions` | src/lib/server/database.ts:106-111 | Every other token resolves after a logout exactly as before it. |
| `Properties.LogoutPreservesValid` | src/lib/server/database.ts:106-111 | Logout keeps every table constraint. |
| `Properties.RemoveKeepsUnique` | src/lib/server/database.ts:107-110 | Deleting session rows keeps session ids unique. |
| `Database.CreatePhoto` | src/lib/server/database.ts:70-83 | With an unknown owner, the foreign key fails and the store is unchanged. Otherwise exactly one row is appended with the fresh id, owner, url, description and `now`. It returns that row with `likes` set to 0, and no other table changes. |
| `Properties.CreatePhotoPreservesValid` | src/lib/server/database.ts:70-83 | Inserting a photo with a fresh id keeps every table constraint. |
| `Database.OwnedBy` | src/lib/server/database.ts:28-31 | Keeps exactly the owner's photo rows, each as often as it occurs. |
| `Database.LikesOn` | src/lib/server/database.ts:29 | Keeps exactly the like rows whose photo id matches. |
| `Database.LikesOnCounts` | src/lib/server/database.ts:29 | Keeps each matching like row as often as it occurs, and no other row. |
| `Database.CommentsOn` | src/lib/server/database.ts:30 | Keeps exactly the comment rows whose photo id matches. |
| `Database.CommentsOnCounts` | src/lib/server/database.ts:30 | Keeps each matching comment row as often as it occurs, and no other row. |
| `Database.Cross` | src/lib/server/database.ts:28-30 | The join holds every pairing of a like-side row with a comment-side row, and has as many rows as the product of the two sides. |
| `Database.Nullable` | src/lib/server/database.ts:29-30 | A LEFT JOIN side is its matching rows, each in place and none beside a NULL. It is a single NULL row only when nothing matches. |
| `Database.LeftJoin` | src/lib/server/database.ts:28-30 | A photo's group pairs every like on it with every comment on it. A NULL appears on a side only when the photo has no rows there. The group has max(1, likes) × max(1, comments) rows. |
| `Database.CountDistinctLikers` | src/lib/server/database.ts:27 | `COUNT(DISTINCT l.account_id)` is 0 exactly when every row of the group has a NULL like. |
| `Database.CountDistinctComments` | src/lib/server/database.ts:27 | `COUNT(DISTINCT c.id)` is 0 exactly when every row of the group has a NULL comment. |
| `Database.DistinctCountsIgnoreFanOut` | src/lib/server/database.ts:27-30 | `COUNT(DISTINCT l.account_id)` over the join equals the number of distinct accounts liking the photo. `COUNT(DISTINCT c.id)` equals the number of its comment ids. |
| `Database.Summarize` | src/lib/server/database.ts:27-32 | A photo's group reports its number of distinct likers and its number of distinct comment ids. |
| `Properties.CountsZeroIffNoRows` | src/lib/server/database.ts:27-30 | A count is 0 exactly when the photo has no like rows (or no comment rows). A photo with neither still forms one group, made of a single all-NULL join row. |
| `Properties.FanOutExceedsLikers` | src/lib/server/database.ts:27-30 | A photo with a like and two comments has more join rows than likers, so counting rows would inflate `num_likes`. |
| `Properties.LikersWithin` | src/lib/server/database.ts:27-29 | A photo has no more distinct likers than like rows. |
| `Sorting.SortDesc` | src/lib/server/database.ts:33 | The result is a permutation of the input whose keys never increase. Equal keys may come in any order. |
| `Sorting.PrefixHoldsLargest` | src/lib/server/database.ts:33-34 | Under `LIMIT n` on a sorted sequence, nothing cut off has a larger key than anything kept. |
| `Database.PrefixIsMostRecent` | src/lib/server/database.ts:33-34 | The first `n` rows of a sorted arrangement are in order. They are drawn from the owner's photos, each used no more often than it occurs, and miss none newer than a kept one. |
| `Database.RecentPhotos` | src/lib/server/database.ts:25-35 | It keeps min(10, number of owner's photos) photos. They are a sub-multiset of the owner's photos, so none is repeated beyond its occurrences. They are ordered by `created_at` non-increasingly, and any owned photo newer than one kept is kept. |
| `Database.GetPhotosFromAccountId` | src/lib/server/database.ts:25-35 | As many rows come back as the owner has photos, up to 10. Their photos are a sub-multiset of the owner's photos, newest first, and the owner's newer photos are never cut off. `num_likes` and `num_comments` are the distinct likers and distinct comment ids. |
| `Database.SummarizeAll` | src/lib/server/database.ts:27-32 | One summary per photo, in the same order, with its distinct counts. |
| `Database.SummariesKeepRecency` | src/lib/server/database.ts:33-34 | Summarising keeps the order and the "no newer photo cut off" property of the photos summarised. |
| `Properties.CreateThenList` | src/lib/server/database.ts:25-35 | Right after `create_photo` with a clock later than every stored photo, the new photo heads its owner's listing with 0 likes and 0 comments. |
| `Properties.NewestHeadsListing` | src/lib/server/database.ts:25-35 | A photo strictly newer than every other stored photo, with no likes and no comments, heads its owner's listing with counts 0 and 0. |
| `Properties.ListingHeadIsNewest` | src/lib/server/database.ts:33-34 | A listing ordered newest first that cuts off no newer owned photo starts with a photo at least as new as any the owner has. If one photo is strictly newest, the listing starts with it. |
| `Properties.FreshPhotoHasNoChildren` | src/lib/server/database.ts:29-30 | Under the foreign keys, a photo id not yet stored has no likers and no comments. |
| `Database.AccountWith` | src/lib/server/database.ts:42-44 | Finds an account exactly when one has both the owner id and the requested name. |
| `Database.PhotoOfOwner` | src/lib/server/database.ts:39-45 | The photo is present exactly when a photo with the id exists whose owner's name is the requested name. It then carries that owner's name and avatar. |
| `Database.AuthorViews` | src/lib/server/database.ts:48-50 | A comment joined with exactly the accounts that carry its author's id. With unique account ids that is one row when the author exists and none otherwise. |
| `Database.CommentJoin` | src/lib/server/database.ts:47-51 | Returns exactly the comments on the photo whose author account exists, each with that author's name and avatar. |
| `Database.CommentJoinLayout` | src/lib/server/database.ts:47-51 | With unique account ids and every author present, the join has one row per comment on the photo, in table order. |
| `Database.CommentsOfPhoto` | src/lib/server/database.ts:47-53 | The comment join's rows, each as often as the join holds it, ordered by `created_at` non-increasingly. Under the table constraints it has exactly as many rows as the photo has comments. |
| `Database.LikerAccounts` | src/lib/server/database.ts:56-58 | A like joined with exactly the accounts that carry the liker's id. With unique account ids that is one row when the liker exists and none otherwise. |
| `Database.LikeJoin` | src/lib/server/database.ts:55-59 | Returns exactly the likes on the photo whose account exists, each with that account. |
| `Database.LikeJoinLayout` | src/lib/server/database.ts:55-59 | With unique account ids and every liker present, the join has one row per like on the photo, in table order. |
| `Database.LikeRowsOfPhoto` | src/lib/server/database.ts:55-61 | The like join's rows, each as often as the join holds it, ordered by the like's `created_at` non-increasingly. Under the table constraints it has exactly as many rows as the photo has likes. |
| `Database.JoinLengths` | src/lib/server/database.ts:47-61 | Under the table constraints, the comment join and the like join have one row per comment and per like on the photo. |
| `Database.GetPhotoDetails` | src/lib/server/database.ts:38-67 | The photo is present only for a matching id and owner name. The comments are the ordered comment list of the photo id. The likes are the name and avatar of each ordered like row. Under the table constraints there are exactly as many comments and likes as the photo has rows of each. |
| `Properties.DetailsCheckOwner` | src/lib/server/database.ts:39-45 | An existing photo id requested under the name of an account that does not own it gives no photo. |
| `Properties.OnlyOwnerJoins` | src/lib/server/database.ts:39-45 | Under the primary keys, the only account that joins with a photo's id is the photo's owner. |
| `Properties.DetailsListsIgnoreName` | src/lib/server/database.ts:47-61 | The comment and like lists depend only on the photo id, so they are the same under any name, even when the photo is absent. |
| `Properties.CreateThenDetails` | src/lib/server/database.ts:38-83 | A freshly inserted photo is found under its owner's name, with the owner's avatar and empty comment and like lists. |
| `Text.Split` | src/routes/+page.server.ts:25 | `split('.')` returns at least one part, and no part contains the separator. |
| `Text.JoinSplit` | src/routes/+page.server.ts:25 | Joining the parts of a split gives back the string. |
| `Text.SplitJoin` | src/routes/+page.server.ts:25 | Splitting a join of separator-free parts gives back the parts. |
| `Text.SplitWithoutSeparator` | src/routes/+page.server.ts:25 | A string without the separator splits into itself alone. |
| `Text.SplitAfterSeparator` | src/routes/+page.server.ts:25 | A separator-free head followed by the separator becomes the first part. |
| `Text.LastPartIsSuffix` | src/routes/+page.server.ts:25 | The last part of a split is a suffix of the string. It is preceded by the separator unless it is the whole string. |
| `Text.Extension` | src/routes/+page.server.ts:25 | `ext` has no dot and is a suffix of the name. It is either the whole name or directly preceded by a dot, so it is the text after the last dot, or the whole name when there is no dot. |
| `Text.ExtensionAfterDot` | src/routes/+page.server.ts:25 | The extension of `prefix.ext` is `ext` whenever `ext` has no dot. |
| `Text.Decimal` | src/routes/+page.server.ts:26 | The clock renders as a non-empty string of digits without a leading zero. |
| `Text.DecimalRoundTrip` | src/routes/+page.server.ts:26 | Reading the rendered digits back gives the clock value. |
| `PageServer.Falsy` | src/routes/+page.server.ts:21 | A missing field or an empty string is falsy, as JavaScript's `!` treats them. |
| `PageServer.Accepted` | src/routes/+page.server.ts:10-23 | The request passes both guards: an account is logged in, and the form has a file and a description that is not falsy. |
| `PageServer.BlobKey` | src/routes/+page.server.ts:25-26 | The key is `<account id>/<clock digits>.<ext>`, starts with the account id and a slash, and has the same extension as the uploaded file. |
| `PageServer.BlobKeyRoundTrip` | src/routes/+page.server.ts:25-26 | When the account id and the file name have no slash, parsing the key gives back the account id, the clock and the extension. |
| `PageServer.Handle` | src/routes/+page.server.ts:9-35 | With no account the answer is 401. With no file or a falsy description it is 422. In both cases the store is unchanged and nothing is uploaded. Otherwise exactly one key, `BlobKey` of the account, clock and file name, is uploaded. Then exactly one photo is inserted with the upload's URL and the redirect goes to `/<name>/<id>`, or the foreign-key error propagates with the store unchanged after the upload, so the blob is left without a photo row. |
| `RouteProperties.HandlePreservesValid` | src/routes/+page.server.ts:9-35 | Whatever the action answers, and whatever value it stores as the description, the store keeps its constraints. |
| `PageServer.Post` | src/routes/+page.server.ts:9-35 | The action with the description stored as the description. The same guards, uploads and outcomes as `Handle`: nothing is uploaded on 401 or 422, one key is uploaded once both guards pass, including when the insert then fails. The inserted photo's description is the form's description. |
| `PageServer.PostAsWritten` | src/routes/+page.server.ts:9-35 | The action as the call is written. A rejected request behaves exactly as in `Post`, and an accepted one uploads the same single key. When a redirect happens, the stored description is the coerced width field. |
| `RouteProperties.PostAsWrittenPreservesValid` | src/routes/+page.server.ts:33 | The action as written also keeps the store's constraints. Its fault is in the stored value, not in the shape of the store. |
| `PageServer.AsWrittenDropsDescription` | src/routes/+page.server.ts:33 | A form whose description is "a cat" and whose width is "640" stores "640" as the photo's description. |
| `RouteProperties.RedirectTargetResolves` | src/routes/+page.server.ts:28-34 | After a successful post, the redirect path `/<name>/<id>` finds the new photo through the details query, and the store keeps its constraints. |
| `RouteProperties.PostPreservesValid` | src/routes/+page.server.ts:9-35 | Whatever the corrected action answers, the store keeps its constraints. |

## Left out

- The connection pool and its SSL setting (src/lib/server/database.ts:5-7). They are driver and network I/O. A failing statement appears only inside `login`, as the `Fault` input. Elsewhere the only error modelled is the foreign-key violation of `create_photo`.
- Transaction isolation and concurrent logins under one name. These depend on the database engine. `login` is a single atomic transition.
- `blob.put`, the environment tokens, and the request-form API. The upload is a `string -> string` parameter, and an upload failure is not modelled. Which keys were uploaded is recorded in `Reply.uploaded`. The blob's contents are not. A `file` field that holds a string instead of a file is not modelled either.
- SvelteKit's `error` and `redirect` helpers. Their result is the `Outcome` datatype.
- `Date.now()` and the database's `now()` are `nat` inputs. The template literal is modelled as plain decimal digits, which is what it produces for an integral millisecond count.
- The numeric conversions `+width` and `+height`. These are floating point and can give `NaN`. The conversion that reaches the description column is the `coerce` parameter of `PageServer.PostAsWritten`. Width and height are not stored anywhere.
- The empty `load` function.
- Table definitions. `Comment` keeps only the four columns the queries name: id, photo id, account id and `created_at`. `SELECT c.*` returns every column of the comment table, so any other column, such as the comment's text, is not part of `CommentView`. `create_photo` returns its count under the name `likes`, not `num_likes`, and the model keeps that name.
- Database.CommentsOfPhoto: each row appears exactly as often as in `Database.CommentJoin`. Its count is stated in terms of the comment table only under the table constraints, as one row per comment on the photo.
- Database.LikeRowsOfPhoto: each row appears exactly as often as in `Database.LikeJoin`. Its count is stated in terms of the like table only under the table constraints, as one row per like on the photo.
- Database.AuthorViews: the row count is stated only when account ids are unique. Otherwise only which rows appear is stated.
- Database.LikerAccounts: the row count is stated only when account ids are unique. Otherwise only which rows appear is stated.
- Database.CommentJoin: its own contract says only which rows appear. How many rows it has is stated by `Database.CommentJoinLayout`, only when account ids are unique and every author exists.
- Database.LikeJoin: its own contract says only which rows appear. How many rows it has is stated by `Database.LikeJoinLayout`, only when account ids are unique and every liker exists.
- Database.GetPhotosFromAccountId: `GROUP BY p.id` would merge two photo rows with the same id. The model makes one group per photo row, which is the same thing under the photo primary key.
- Database.GetAccountFromSessionId: SQL returns join rows in no fixed order and the code takes the first. The model takes the first matching session in table order. Under the primary keys at most one row matches, which `Properties.SessionResolves` states.

## Findings

| source | as written | input that shows it | evidently intended | confidence | as-written member | corrected member |
|---|---|---|---|---|---|---|
| src/routes/+page.server.ts:33 | The call to `create_photo` passes five arguments: account id, url, `+width`, `+height`, description. `create_photo` (src/lib/server/database.ts:70) has three parameters, so the description column receives the coerced width, and the form's description is dropped. | A form with description "a cat" and width "640" stores a photo whose description is "640". | Store the form's description as the photo's description. | high; not executed | `PageServer.PostAsWritten`, `PageServer.AsWrittenDropsDescription` | `PageServer.Post` |

=== FILE: database.dfy ===
/** The queries and transitions of the server's database module, each a pure
    function of the store. Generated ids and `now()` are inputs; whether a
    generated id is fresh is stated where it matters (see `Properties`). */
module Database {
  import opened Wrappers
  import opened Tables
  import Sorting

  // ---------------------------------------------------------------------
  // Accounts and sessions
  // ---------------------------------------------------------------------

  /** `get_account_from_name`: the account with this exact name, if any. */
  function GetAccountFromName(s: Store, name: string): (r: Option<Account>)
    ensures r.Some? <==> name in AccountNames(s.accounts)
    ensures r.Some? ==> r.value in s.accounts && r.value.name == name
  {
    AccountByName(s.accounts, name)
  }

  /** The first row of `session INNER JOIN account ON session.account_id =
      account.id WHERE session.id = sid`, projected onto the account. */
  function SessionJoin(sessions: seq<Session>, accounts: seq<Account>, sid: Id): (r: Option<Account>)
    ensures r.Some? <==> exists se :: se in sessions && se.id == sid && se.accountId in AccountIds(accounts)
    ensures r.Some? ==> r.value in accounts && Session(sid, r.value.id) in sessions
  {
    if sessions == [] then None
    else
      assert sessions == [sessions[0]] + sessions[1..];
      if sessions[0].id == sid && sessions[0].accountId in AccountIds(accounts) then
        AccountById(accounts, sessions[0].accountId)
      else
        SessionJoin(sessions[1..], accounts, sid)
  }

  /** `get_account_from_session_id`: absent both for an unknown token and
      for a token whose account row is missing. */
  function GetAccountFromSessionId(s: Store, sid: Id): (r: Option<Account>)
    ensures r.Some? <==> exists se :: se in s.sessions && se.id == sid && se.accountId in AccountIds(s.accounts)
    ensures r.Some? ==> r.value in s.accounts && Session(sid, r.value.id) in s.sessions
  {
    SessionJoin(s.sessions, s.accounts, sid)
  }

  /** `INSERT INTO account … ON CONFLICT (name) DO UPDATE SET avatar =
      EXCLUDED.avatar RETURNING id`: the new table and the returned id. */
  function UpsertAccount(accounts: seq<Account>, name: string, avatar: string, freshId: Id): (r: (seq<Account>, Id))
    ensures name in AccountNames(accounts) ==>
      && |r.0| == |accounts|
      && (forall i :: 0 <= i < |accounts| ==> r.0[i].id == accounts[i].id && r.0[i].name == accounts[i].name)
      && (forall i :: 0 <= i < |accounts| ==>
            r.0[i].avatar == if accounts[i].name == name then avatar else accounts[i].avatar)
      && (exists i :: 0 <= i < |accounts| && accounts[i].name == name && accounts[i].id == r.1)
    ensures name !in AccountNames(accounts) ==>
      r.0 == accounts + [Account(freshId, name, avatar)] && r.1 == freshId
    ensures Account(r.1, name, avatar) in r.0
  {
    match AccountByName(accounts, name)
    case Some(a) =>
      var updated := seq(|accounts|, i requires 0 <= i < |accounts| =>
        if accounts[i].name == name then accounts[i].(avatar := avatar) else accounts[i]);
      var k :| 0 <= k < |accounts| && accounts[k] == a;
      assert updated[k] == Account(a.id, name, avatar);
      (updated, a.id)
    case None =>
      (accounts + [Account(freshId, name, avatar)], freshId)
  }

  /** Where the driver fails, if anywhere, during the login transaction. */
  datatype Fault = Healthy | UpsertFails | SessionInsertFails

  /** The statements inside `sql.begin`, run on a working copy of the store. */
  function LoginBody(s: Store, name: string, avatar: string, accountId: Id, sessionId: Id, fault: Fault): (r: Result<(Store, Id), DbError>)
    ensures r.Failure? <==> fault != Healthy
    ensures r.Failure? ==> r.error == DriverFailure
    ensures r.Success? ==>
      && r.value.1 == sessionId
      && r.value.0.photos == s.photos && r.value.0.likes == s.likes && r.value.0.comments == s.comments
      && r.value.0.accounts == UpsertAccount(s.accounts, name, avatar, accountId).0
      && r.value.0.sessions == s.sessions + [Session(sessionId, UpsertAccount(s.accounts, name, avatar, accountId).1)]
  {
    if fault.UpsertFails? then Failure(DriverFailure)
    else
      var (accounts, owner) := UpsertAccount(s.accounts, name, avatar, accountId);
      var working := s.(accounts := accounts);
      if fault.SessionInsertFails? then Failure(DriverFailure)
      else Success((working.(sessions := working.sessions + [Session(sessionId, owner)]), sessionId))
  }

  /** `sql.begin`: commit the body's store, or keep the old one on failure. */
  function Begin<T>(s: Store, body: Result<(Store, T), DbError>): (r: (Store, Result<T, DbError>))
    ensures r.1.Failure? <==> body.Failure?
    ensures r.1.Failure? ==> r.0 == s && r.1.error == body.error
    ensures r.1.Success? ==> r.0 == body.value.0 && r.1.value == body.value.1
  {
    match body
    case Success((committed, v)) => (committed, Success(v))
    case Failure(e) => (s, Failure(e))
  }

  /** `login`: upsert the account and mint a session for it, atomically.
      `accountId` and `sessionId` are the ids the database would generate. */
  function Login(s: Store, name: string, avatar: string, accountId: Id, sessionId: Id, fault: Fault): (r: (Store, Result<Id, DbError>))
    ensures r.1.Failure? <==> fault != Healthy
    ensures r.1.Failure? ==> r.0 == s
    ensures r.1.Success? ==> r.1.value == sessionId
    ensures r.1.Success? ==>
      && r.0.photos == s.photos && r.0.likes == s.likes && r.0.comments == s.comments
      && r.0.accounts == UpsertAccount(s.accounts, name, avatar, accountId).0
      && r.0.sessions == s.sessions + [Session(sessionId, UpsertAccount(s.accounts, name, avatar, accountId).1)]
    ensures r.1.Success? ==> Account(r.0.sessions[|s.sessions|].accountId, name, avatar) in r.0.accounts
  {
    Begin(s, LoginBody(s, name, avatar, accountId, sessionId, fault))
  }

  /** `DELETE FROM session WHERE id = sid` on the session table. */
  function RemoveSession(sessions: seq<Session>, sid: Id): (r: seq<Session>)
    ensures forall se :: se in r <==> se in sessions && se.id != sid
    ensures sid !in SessionIds(sessions) ==> r == sessions
    ensures |r| <= |sessions|
  {
    if sessions == [] then []
    else
      assert sessions == [sessions[0]] + sessions[1..];
      var rest := RemoveSession(sessions[1..], sid);
      if sessions[0].id == sid then rest else [sessions[0]] + rest
  }

  /** `logout`: removes the session `sid` and nothing else; no error when
      there is none. */
  function Logout(s: Store, sid: Id): (r: Store)
    ensures r.accounts == s.accounts && r.photos == s.photos && r.likes == s.likes && r.comments == s.comments
    ensures forall se :: se in r.sessions <==> se in s.sessions && se.id != sid
    ensures sid !in SessionIds(s.sessions) ==> r == s
    ensures GetAccountFromSessionId(r, sid) == None
  {
    s.(sessions := RemoveSession(s.sessions, sid))
  }

  // ---------------------------------------------------------------------
  // Photos
  // ---------------------------------------------------------------------

  /** The row `create_photo` returns: the inserted photo and `likes: 0`. */
  datatype NewPhoto = NewPhoto(photo: Photo, likes: nat)

  /** `create_photo`: inserts one photo row stamped with `now`. The foreign
      key on `account_id` rejects an unknown owner. */
  function CreatePhoto(s: Store, accountId: Id, url: string, description: string, photoId: Id, now: nat): (r: (Store, Result<NewPhoto, DbError>))
    ensures r.1.Failure? <==> accountId !in AccountIds(s.accounts)
    ensures r.1.Failure? ==> r.0 == s && r.1.error == ForeignKeyViolation
    ensures r.1.Success? ==>
      && r.1.value.likes == 0
      && r.1.value.photo == Photo(photoId, accountId, url, description, now)
      && r.0 == s.(photos := s.photos + [r.1.value.photo])
  {
    if accountId !in AccountIds(s.accounts) then
      (s, Failure(ForeignKeyViolation))
    else
      var p := Photo(photoId, accountId, url, description, now);
      (s.(photos := s.photos + [p]), Success(NewPhoto(p, 0)))
  }

  /** `WHERE p.account_id = accountId`, keeping every matching row. */
  function OwnedBy(photos: seq<Photo>, accountId: Id): (r: seq<Photo>)
    ensures forall p :: multiset(r)[p] == if p.accountId == accountId then multiset(photos)[p] else 0
    ensures forall p :: p in r <==> p in photos && p.accountId == accountId
  {
    if photos == [] then []
    else
      assert photos == [photos[0]] + photos[1..];
      var rest := OwnedBy(photos[1..], accountId);
      if photos[0].accountId == accountId then [photos[0]] + rest else rest
  }

  /** A row of `photo LEFT JOIN likes LEFT JOIN comment` for one photo;
      `None` is the NULL a LEFT JOIN pads with. */
  datatype JoinRow = JoinRow(like: Option<Like>, comment: Option<Comment>)

  /** The like rows `ON p.id = l.photo_id` matches, each as often as it occurs. */
  function LikesOn(likes: seq<Like>, photoId: Id): (r: seq<Like>)
    ensures forall l :: l in r <==> l in likes && l.photoId == photoId
  {
    if likes == [] then []
    else
      assert likes == [likes[0]] + likes[1..];
      var rest := LikesOn(likes[1..], photoId);
      if likes[0].photoId == photoId then [likes[0]] + rest else rest
  }

  /** The comment rows `ON p.id = c.photo_id` matches, each as often as it occurs. */
  function CommentsOn(comments: seq<Comment>, photoId: Id): (r: seq<Comment>)
    ensures forall c :: c in r <==> c in comments && c.photoId == photoId
  {
    if comments == [] then []
    else
      assert comments == [comments[0]] + comments[1..];
      var rest := CommentsOn(comments[1..], photoId);
      if comments[0].photoId == photoId then [comments[0]] + rest else rest
  }

  /** `LikesOn` keeps every matching like row as often as it occurs. */
  lemma {:induction false} LikesOnCounts(likes: seq<Like>, photoId: Id)
    ensures forall l :: multiset(LikesOn(likes, photoId))[l] == if l.photoId == photoId then multiset(likes)[l] else 0
  {
    if likes != [] {
      assert likes == [likes[0]] + likes[1..];
      LikesOnCounts(likes[1..], photoId);
    }
  }

  /** `CommentsOn` keeps every matching comment row as often as it occurs. */
  lemma {:induction false} CommentsOnCounts(comments: seq<Comment>, photoId: Id)
    ensures forall c :: multiset(CommentsOn(comments, photoId))[c] == if c.photoId == photoId then multiset(comments)[c] else 0
  {
    if comments != [] {
      assert comments == [comments[0]] + comments[1..];
      CommentsOnCounts(comments[1..], photoId);
    }
  }

  /** One side of a LEFT JOIN: the matching rows, or one NULL row. */
  function Nullable<T(!new)>(rows: seq<T>): (r: seq<Option<T>>)
    ensures |r| >= 1
    ensures forall x :: Some(x) in r <==> x in rows
    ensures rows == [] ==> r == [None]
    ensures rows != [] ==> |r| == |rows|
    ensures rows != [] ==> forall i :: 0 <= i < |rows| ==> r[i] == Some(rows[i])
  {
    if rows == [] then [None]
    else
      var r := seq(|rows|, i requires 0 <= i < |rows| => Some(rows[i]));
      assert forall x :: x in rows ==> Some(x) in r by {
        forall x | x in rows ensures Some(x) in r {
          var i :| 0 <= i < |rows| && rows[i] == x;
          assert r[i] == Some(x);
        }
      }
      r
  }

  /** Every pairing of a like-side row with a comment-side row. */
  function Cross(ls: seq<Option<Like>>, cs: seq<Option<Comment>>): (r: seq<JoinRow>)
    ensures forall row :: row in r <==> row.like in ls && row.comment in cs
    ensures |r| == |ls| * |cs|
  {
    if ls == [] then []
    else
      assert ls == [ls[0]] + ls[1..];
      var first := seq(|cs|, j requires 0 <= j < |cs| => JoinRow(ls[0], cs[j]));
      assert forall c :: c in cs ==> JoinRow(ls[0], c) in first by {
        forall c | c in cs ensures JoinRow(ls[0], c) in first {
          var j :| 0 <= j < |cs| && cs[j] == c;
          assert first[j] == JoinRow(ls[0], c);
        }
      }
      first + Cross(ls[1..], cs)
  }

  /** The join rows grouped under one photo id: every like of the photo
      paired with every comment of it, a side padded with NULL only when
      the photo has no rows on that side. */
  function LeftJoin(s: Store, photoId: Id): (r: seq<JoinRow>)
    ensures forall l, c :: l in s.likes && l.photoId == photoId && c in s.comments && c.photoId == photoId ==>
              JoinRow(Some(l), Some(c)) in r
    ensures forall row :: row in r && row.like.Some? ==> row.like.value in s.likes && row.like.value.photoId == photoId
    ensures forall row :: row in r && row.comment.Some? ==>
              row.comment.value in s.comments && row.comment.value.photoId == photoId
    ensures forall row :: row in r && row.like.None? ==> LikesOn(s.likes, photoId) == []
    ensures forall row :: row in r && row.comment.None? ==> CommentsOn(s.comments, photoId) == []
    ensures |r| == (if LikesOn(s.likes, photoId) == [] then 1 else |LikesOn(s.likes, photoId)|)
                 * (if CommentsOn(s.comments, photoId) == [] then 1 else |CommentsOn(s.comments, photoId)|)
  {
    Cross(Nullable(LikesOn(s.likes, photoId)), Nullable(CommentsOn(s.comments, photoId)))
  }

  /** `COUNT(DISTINCT l.account_id)` over a group: NULLs are not counted. */
  function CountDistinctLikers(rows: seq<JoinRow>): (r: nat)
    ensures r == 0 <==> forall row :: row in rows ==> row.like.None?
  {
    var ids := set row | row in rows && row.like.Some? :: row.like.value.accountId;
    assert (exists row :: row in rows && row.like.Some?) ==> ids != {} by {
      if row :| row in rows && row.like.Some? {
        assert row.like.value.accountId in ids;
      }
    }
    |ids|
  }

  /** `COUNT(DISTINCT c.id)` over a group. */
  function CountDistinctComments(rows: seq<JoinRow>): (r: nat)
    ensures r == 0 <==> forall row :: row in rows ==> row.comment.None?
  {
    var ids := set row | row in rows && row.comment.Some? :: row.comment.value.id;
    assert (exists row :: row in rows && row.comment.Some?) ==> ids != {} by {
      if row :| row in rows && row.comment.Some? {
        assert row.comment.value.id in ids;
      }
    }
    |ids|
  }

  /** The accounts that like a photo, however many rows each has. */
  function Likers(likes: seq<Like>, photoId: Id): set<Id> {
    set l | l in likes && l.photoId == photoId :: l.accountId
  }

  /** The ids of a photo's comments. */
  function CommentIds(comments: seq<Comment>, photoId: Id): set<Id> {
    set c | c in comments && c.photoId == photoId :: c.id
  }

  /** Distinct counting over the join equals counting the related rows
      themselves: the fan-out of likes × comments inflates nothing. */
  lemma DistinctCountsIgnoreFanOut(s: Store, photoId: Id)
    ensures CountDistinctLikers(LeftJoin(s, photoId)) == |Likers(s.likes, photoId)|
    ensures CountDistinctComments(LeftJoin(s, photoId)) == |CommentIds(s.comments, photoId)|
  {
    var ls := Nullable(LikesOn(s.likes, photoId));
    var cs := Nullable(CommentsOn(s.comments, photoId));
    var rows := LeftJoin(s, photoId);
    var joinedLikers := set row | row in rows && row.like.Some? :: row.like.value.accountId;
    var joinedComments := set row | row in rows && row.comment.Some? :: row.comment.value.id;
    forall x | x in Likers(s.likes, photoId) ensures x in joinedLikers {
      var l :| l in s.likes && l.photoId == photoId && l.accountId == x;
      assert JoinRow(Some(l), cs[0]) in rows;
    }
    forall x | x in CommentIds(s.comments, photoId) ensures x in joinedComments {
      var c :| c in s.comments && c.photoId == photoId && c.id == x;
      assert JoinRow(ls[0], Some(c)) in rows;
    }
    assert joinedLikers == Likers(s.likes, photoId);
    assert joinedComments == CommentIds(s.comments, photoId);
  }

  /** A row of `get_photos_from_account_id`. */
  datatype PhotoSummary = PhotoSummary(photo: Photo, numLikes: nat, numComments: nat)

  /** One group of the `GROUP BY p.id` with its two distinct counts. */
  function Summarize(s: Store, p: Photo): (r: PhotoSummary)
    ensures r.photo == p
    ensures r.numLikes == |Likers(s.likes, p.id)|
    ensures r.numComments == |CommentIds(s.comments, p.id)|
  {
    var rows := LeftJoin(s, p.id);
    DistinctCountsIgnoreFanOut(s, p.id);
    PhotoSummary(p, CountDistinctLikers(rows), CountDistinctComments(rows))
  }

  /** The `LIMIT` of `get_photos_from_account_id`. */
  const PhotoLimit: nat := 10

  function Min(a: nat, b: nat): nat {
    if a < b then a else b
  }

  /** The photos `get_photos_from_account_id` keeps, newest first: the
      owner's photos ordered by `created_at DESC`, then `LIMIT 10`. */
  function RecentPhotos(photos: seq<Photo>, accountId: Id): (r: seq<Photo>)
    ensures |r| == Min(|OwnedBy(photos, accountId)|, PhotoLimit)
    ensures forall i :: 0 <= i < |r| ==> r[i] in photos && r[i].accountId == accountId
    ensures Sorting.SortedDesc(r, CreatedAt)
    ensures forall p, i :: p in photos && p.accountId == accountId && 0 <= i < |r| && r[i].createdAt < p.createdAt
              ==> p in r
    ensures multiset(r) <= multiset(OwnedBy(photos, accountId))
  {
    var owned := OwnedBy(photos, accountId);
    var sorted := Sorting.SortDesc(owned, CreatedAt);
    var n := Min(|sorted|, PhotoLimit);
    PrefixIsMostRecent(owned, sorted, n);
    sorted[..n]
  }

  /** A sorted arrangement of `owned`, cut after `n` rows, keeps rows of
      `owned`, each no more often than `owned` has it, and misses none that
      is newer than a row it kept. */
  lemma PrefixIsMostRecent(owned: seq<Photo>, sorted: seq<Photo>, n: nat)
    requires multiset(sorted) == multiset(owned)
    requires Sorting.SortedDesc(sorted, CreatedAt)
    requires n <= |sorted|
    ensures forall i :: 0 <= i < n ==> sorted[..n][i] in owned
    ensures Sorting.SortedDesc(sorted[..n], CreatedAt)
    ensures forall p, i :: p in owned && 0 <= i < n && sorted[i].createdAt < p.createdAt ==> p in sorted[..n]
    ensures multiset(sorted[..n]) <= multiset(owned)
  {
    var r := sorted[..n];
    assert sorted == r + sorted[n..];
    forall y | y in sorted[n..] ensures forall i :: 0 <= i < n ==> CreatedAt(y) <= CreatedAt(sorted[i]) {
      Sorting.PrefixHoldsLargest(sorted, CreatedAt, n, y);
    }
    forall p, i | p in owned && 0 <= i < n && sorted[i].createdAt < p.createdAt
      ensures p in r
    {
      assert p in multiset(sorted);
      var k :| 0 <= k < |sorted| && sorted[k] == p;
      if n <= k {
        assert false;
      }
      assert r[k] == p;
    }
    forall i | 0 <= i < n ensures r[i] in owned {
      assert sorted[i] in multiset(owned);
    }
  }

  /** `get_photos_from_account_id`: the owner's most recent photos, newest
      first, at most `PhotoLimit` of them, each with its distinct counts. */
  function GetPhotosFromAccountId(s: Store, accountId: Id): (r: seq<PhotoSummary>)
    ensures |r| == Min(|OwnedBy(s.photos, accountId)|, PhotoLimit)
    ensures forall i :: 0 <= i < |r| ==> r[i].photo in s.photos && r[i].photo.accountId == accountId
    ensures forall i, j :: 0 <= i < j < |r| ==> r[i].photo.createdAt >= r[j].photo.createdAt
    ensures forall p, i :: p in s.photos && p.accountId == accountId && 0 <= i < |r| && r[i].photo.createdAt < p.createdAt
              ==> p in PhotosOf(r)
    ensures forall i :: 0 <= i < |r| ==>
              r[i].numLikes == |Likers(s.likes, r[i].photo.id)| && r[i].numComments == |CommentIds(s.comments, r[i].photo.id)|
    ensures multiset(PhotosOf(r)) <= multiset(OwnedBy(s.photos, accountId))
  {
    var recent := RecentPhotos(s.photos, accountId);
    var r := SummarizeAll(s, recent);
    SummariesKeepRecency(s.photos, accountId, recent, r);
    r
  }

  /** The photo column of a listing. */
  function PhotosOf(rows: seq<PhotoSummary>): seq<Photo> {
    seq(|rows|, i requires 0 <= i < |rows| => rows[i].photo)
  }

  /** The summary of each photo, in the same order. */
  function SummarizeAll(s: Store, photos: seq<Photo>): (r: seq<PhotoSummary>)
    ensures |r| == |photos|
    ensures forall i :: 0 <= i < |r| ==> r[i].photo == photos[i]
    ensures forall i :: 0 <= i < |r| ==>
              r[i].numLikes == |Likers(s.likes, photos[i].id)| && r[i].numComments == |CommentIds(s.comments, photos[i].id)|
  {
    seq(|photos|, i requires 0 <= i < |photos| => Summarize(s, photos[i]))
  }

  /** Summaries laid out row for row over the recent photos keep their
      order, and every photo newer than one of them is among them. */
  lemma SummariesKeepRecency(photos: seq<Photo>, accountId: Id, recent: seq<Photo>, r: seq<PhotoSummary>)
    requires Sorting.SortedDesc(recent, CreatedAt)
    requires forall p, i :: p in photos && p.accountId == accountId && 0 <= i < |recent| && recent[i].createdAt < p.createdAt
               ==> p in recent
    requires |r| == |recent|
    requires forall i :: 0 <= i < |r| ==> r[i].photo == recent[i]
    ensures forall i, j :: 0 <= i < j < |r| ==> r[i].photo.createdAt >= r[j].photo.createdAt
    ensures forall p, i :: p in photos && p.accountId == accountId && 0 <= i < |r| && r[i].photo.createdAt < p.createdAt
              ==> p in PhotosOf(r)
    ensures PhotosOf(r) == recent
  {
    assert PhotosOf(r) == recent;
    forall i, j | 0 <= i < j < |r| ensures r[i].photo.createdAt >= r[j].photo.createdAt {
      assert CreatedAt(recent[i]) >= CreatedAt(recent[j]);
    }
  }

  // ---------------------------------------------------------------------
  // Photo details
  // ---------------------------------------------------------------------

  /** `p.*, a.name, a.avatar` for a photo and its owner. */
  datatype PhotoDetail = PhotoDetail(photo: Photo, ownerName: string, ownerAvatar: string)

  /** `c.*, a.name, a.avatar` for a comment and its author. */
  datatype CommentView = CommentView(comment: Comment, authorName: string, authorAvatar: string)

  /** A like joined with the liking account, before projection. */
  datatype LikeRow = LikeRow(like: Like, liker: Account)

  /** `a.name, a.avatar` of a liking account. */
  datatype Liker = Liker(name: string, avatar: string)

  /** What `get_photo_details` returns; `photo` is absent when no row matched. */
  datatype Details = Details(photo: Option<PhotoDetail>, comments: seq<CommentView>, likes: seq<Liker>)

  /** First account carrying both this id and this name. */
  function AccountWith(accounts: seq<Account>, id: Id, name: string): (r: Option<Account>)
    ensures r.Some? <==> exists a :: a in accounts && a.id == id && a.name == name
    ensures r.Some? ==> r.value in accounts && r.value.id == id && r.value.name == name
  {
    if accounts == [] then None
    else if accounts[0].id == id && accounts[0].name == name then Some(accounts[0])
    else
      assert accounts == [accounts[0]] + accounts[1..];
      AccountWith(accounts[1..], id, name)
  }

  /** The first row of `photo p INNER JOIN account a ON p.account_id = a.id
      WHERE p.id = photoId AND a.name = name`. */
  function PhotoOfOwner(photos: seq<Photo>, accounts: seq<Account>, name: string, photoId: Id): (r: Option<PhotoDetail>)
    ensures r.Some? <==> exists p, a :: p in photos && a in accounts && p.id == photoId && p.accountId == a.id && a.name == name
    ensures r.Some? ==>
      && r.value.photo in photos && r.value.photo.id == photoId && r.value.ownerName == name
      && Account(r.value.photo.accountId, name, r.value.ownerAvatar) in accounts
  {
    if photos == [] then None
    else
      assert photos == [photos[0]] + photos[1..];
      var p := photos[0];
      if p.id == photoId && AccountWith(accounts, p.accountId, name).Some? then
        var a := AccountWith(accounts, p.accountId, name).value;
        Some(PhotoDetail(p, a.name, a.avatar))
      else
        PhotoOfOwner(photos[1..], accounts, name, photoId)
  }

  /** Under unique account ids, the first account's id is not among the rest. */
  lemma FirstIdNotInRest(accounts: seq<Account>)
    requires accounts != []
    ensures UniqueAccounts(accounts) ==> UniqueAccounts(accounts[1..]) && accounts[0].id !in AccountIds(accounts[1..])
  {
  }

  /** The comment joined with every account whose id is its author's: one
      view when account ids are unique and the author exists, none when the
      author does not. */
  function AuthorViews(accounts: seq<Account>, c: Comment): (r: seq<CommentView>)
    ensures forall v :: v in r <==> v.comment == c && Account(c.accountId, v.authorName, v.authorAvatar) in accounts
    ensures UniqueAccounts(accounts) ==> |r| == if c.accountId in AccountIds(accounts) then 1 else 0
  {
    if accounts == [] then []
    else
      assert accounts == [accounts[0]] + accounts[1..];
      var rest := AuthorViews(accounts[1..], c);
      FirstIdNotInRest(accounts);
      if accounts[0].id == c.accountId then
        [CommentView(c, accounts[0].name, accounts[0].avatar)] + rest
      else
        rest
  }

  /** `comment c INNER JOIN account a ON c.account_id = a.id WHERE
      c.photo_id = photoId`, before ordering. */
  function CommentJoin(comments: seq<Comment>, accounts: seq<Account>, photoId: Id): (r: seq<CommentView>)
    ensures forall v :: v in r <==>
              v.comment in comments && v.comment.photoId == photoId
              && Account(v.comment.accountId, v.authorName, v.authorAvatar) in accounts
  {
    if comments == [] then []
    else
      assert comments == [comments[0]] + comments[1..];
      var rest := CommentJoin(comments[1..], accounts, photoId);
      if comments[0].photoId == photoId then AuthorViews(accounts, comments[0]) + rest else rest
  }

  /** Under the table constraints every comment and every like on a photo
      meets exactly one account, so the joins have one row per child row. */
  lemma JoinLengths(s: Store, photoId: Id)
    requires Valid(s)
    ensures |CommentJoin(s.comments, s.accounts, photoId)| == |CommentsOn(s.comments, photoId)|
    ensures |LikeJoin(s.likes, s.accounts, photoId)| == |LikesOn(s.likes, photoId)|
  {
    CommentJoinLayout(s.comments, s.accounts, photoId);
    LikeJoinLayout(s.likes, s.accounts, photoId);
  }

  /** A single view of `c` in front of views laid out over `cs` is laid
      out over `[c] + cs`. */
  lemma ViewsCons(views: seq<CommentView>, rest: seq<CommentView>, c: Comment, cs: seq<Comment>)
    requires |views| == 1 && views[0].comment == c
    requires |rest| == |cs| && forall i :: 0 <= i < |rest| ==> rest[i].comment == cs[i]
    ensures |views + rest| == |[c] + cs|
    ensures forall i :: 0 <= i < |views + rest| ==> (views + rest)[i].comment == ([c] + cs)[i]
  {
    forall i | 1 <= i < |views + rest| ensures (views + rest)[i].comment == ([c] + cs)[i] {
      assert (views + rest)[i] == rest[i - 1] && ([c] + cs)[i] == cs[i - 1];
    }
  }

  /** A single row for `l` in front of rows laid out over `ls` is laid out
      over `[l] + ls`. */
  lemma RowsCons(rows: seq<LikeRow>, rest: seq<LikeRow>, l: Like, ls: seq<Like>)
    requires |rows| == 1 && rows[0].like == l
    requires |rest| == |ls| && forall i :: 0 <= i < |rest| ==> rest[i].like == ls[i]
    ensures |rows + rest| == |[l] + ls|
    ensures forall i :: 0 <= i < |rows + rest| ==> (rows + rest)[i].like == ([l] + ls)[i]
  {
    forall i | 1 <= i < |rows + rest| ensures (rows + rest)[i].like == ([l] + ls)[i] {
      assert (rows + rest)[i] == rest[i - 1] && ([l] + ls)[i] == ls[i - 1];
    }
  }

  /** With unique account ids and every author present, the comment join
      has one row per comment on the photo, in table order. */
  lemma {:induction false} CommentJoinLayout(comments: seq<Comment>, accounts: seq<Account>, photoId: Id)
    requires UniqueAccounts(accounts)
    requires forall c :: c in comments ==> c.accountId in AccountIds(accounts)
    ensures |CommentJoin(comments, accounts, photoId)| == |CommentsOn(comments, photoId)|
    ensures forall i :: 0 <= i < |CommentJoin(comments, accounts, photoId)| ==>
              CommentJoin(comments, accounts, photoId)[i].comment == CommentsOn(comments, photoId)[i]
  {
    if comments != [] {
      assert comments == [comments[0]] + comments[1..];
      CommentJoinLayout(comments[1..], accounts, photoId);
      var rest := CommentJoin(comments[1..], accounts, photoId);
      var onRest := CommentsOn(comments[1..], photoId);
      if comments[0].photoId == photoId {
        var views := AuthorViews(accounts, comments[0]);
        assert comments[0].accountId in AccountIds(accounts);
        assert |views| == 1;
        assert views[0] in views;
        ViewsCons(views, rest, comments[0], onRest);
        assert CommentJoin(comments, accounts, photoId) == views + rest;
        assert CommentsOn(comments, photoId) == [comments[0]] + onRest;
      } else {
        assert CommentJoin(comments, accounts, photoId) == rest;
        assert CommentsOn(comments, photoId) == onRest;
      }
    }
  }

  /** With unique account ids and every liker present, the like join has
      one row per like on the photo, in table order. */
  lemma {:induction false} LikeJoinLayout(likes: seq<Like>, accounts: seq<Account>, photoId: Id)
    requires UniqueAccounts(accounts)
    requires forall l :: l in likes ==> l.accountId in AccountIds(accounts)
    ensures |LikeJoin(likes, accounts, photoId)| == |LikesOn(likes, photoId)|
    ensures forall i :: 0 <= i < |LikeJoin(likes, accounts, photoId)| ==>
              LikeJoin(likes, accounts, photoId)[i].like == LikesOn(likes, photoId)[i]
  {
    if likes != [] {
      assert likes == [likes[0]] + likes[1..];
      LikeJoinLayout(likes[1..], accounts, photoId);
      var rest := LikeJoin(likes[1..], accounts, photoId);
      var onRest := LikesOn(likes[1..], photoId);
      if likes[0].photoId == photoId {
        var rows := LikerAccounts(accounts, likes[0]);
        assert likes[0].accountId in AccountIds(accounts);
        assert |rows| == 1;
        assert rows[0] in rows;
        RowsCons(rows, rest, likes[0], onRest);
        assert LikeJoin(likes, accounts, photoId) == rows + rest;
        assert LikesOn(likes, photoId) == [likes[0]] + onRest;
      } else {
        assert LikeJoin(likes, accounts, photoId) == rest;
        assert LikesOn(likes, photoId) == onRest;
      }
    }
  }

  function CommentCreatedAt(v: CommentView): nat {
    v.comment.createdAt
  }

  /** The comment list of `get_photo_details`, `ORDER BY c.created_at DESC`. */
  function CommentsOfPhoto(s: Store, photoId: Id): (r: seq<CommentView>)
    ensures forall v :: v in r <==>
              v.comment in s.comments && v.comment.photoId == photoId
              && Account(v.comment.accountId, v.authorName, v.authorAvatar) in s.accounts
    ensures forall i, j :: 0 <= i < j < |r| ==> r[i].comment.createdAt >= r[j].comment.createdAt
    ensures multiset(r) == multiset(CommentJoin(s.comments, s.accounts, photoId))
    ensures Valid(s) ==> |r| == |CommentsOn(s.comments, photoId)|
  {
    var joined := CommentJoin(s.comments, s.accounts, photoId);
    var r := Sorting.SortDesc(joined, CommentCreatedAt);
    assert Valid(s) ==> |joined| == |CommentsOn(s.comments, photoId)| by {
      if Valid(s) { JoinLengths(s, photoId); }
    }
    Sorting.SameElements(joined, r);
    r
  }

  /** The like joined with every account whose id is the liker's: one row
      when account ids are unique and the liker exists, none when it does
      not. */
  function LikerAccounts(accounts: seq<Account>, l: Like): (r: seq<LikeRow>)
    ensures forall row :: row in r <==> row.like == l && row.liker in accounts && row.liker.id == l.accountId
    ensures UniqueAccounts(accounts) ==> |r| == if l.accountId in AccountIds(accounts) then 1 else 0
  {
    if accounts == [] then []
    else
      assert accounts == [accounts[0]] + accounts[1..];
      var rest := LikerAccounts(accounts[1..], l);
      FirstIdNotInRest(accounts);
      if accounts[0].id == l.accountId then [LikeRow(l, accounts[0])] + rest else rest
  }

  /** `likes l INNER JOIN account a ON l.account_id = a.id WHERE
      l.photo_id = photoId`, before ordering and projection. */
  function LikeJoin(likes: seq<Like>, accounts: seq<Account>, photoId: Id): (r: seq<LikeRow>)
    ensures forall row :: row in r <==>
              row.like in likes && row.like.photoId == photoId
              && row.liker in accounts && row.liker.id == row.like.accountId
  {
    if likes == [] then []
    else
      assert likes == [likes[0]] + likes[1..];
      var rest := LikeJoin(likes[1..], accounts, photoId);
      if likes[0].photoId == photoId then LikerAccounts(accounts, likes[0]) + rest else rest
  }

  function LikeCreatedAt(row: LikeRow): nat {
    row.like.createdAt
  }

  /** The like rows of a photo, `ORDER BY l.created_at DESC`. */
  function LikeRowsOfPhoto(s: Store, photoId: Id): (r: seq<LikeRow>)
    ensures forall row :: row in r <==>
              row.like in s.likes && row.like.photoId == photoId
              && row.liker in s.accounts && row.liker.id == row.like.accountId
    ensures forall i, j :: 0 <= i < j < |r| ==> r[i].like.createdAt >= r[j].like.createdAt
    ensures multiset(r) == multiset(LikeJoin(s.likes, s.accounts, photoId))
    ensures Valid(s) ==> |r| == |LikesOn(s.likes, photoId)|
  {
    var joined := LikeJoin(s.likes, s.accounts, photoId);
    var r := Sorting.SortDesc(joined, LikeCreatedAt);
    assert Valid(s) ==> |joined| == |LikesOn(s.likes, photoId)| by {
      if Valid(s) { JoinLengths(s, photoId); }
    }
    Sorting.SameElements(joined, r);
    r
  }

  /** `get_photo_details`: the photo only when its id and its owner's name
      both match; the two child lists are selected by the photo id alone. */
  function GetPhotoDetails(s: Store, name: string, photoId: Id): (r: Details)
    ensures r.photo.Some? <==>
              exists p, a :: p in s.photos && a in s.accounts && p.id == photoId && p.accountId == a.id && a.name == name
    ensures r.photo.Some? ==>
              && r.photo.value.photo in s.photos && r.photo.value.photo.id == photoId && r.photo.value.ownerName == name
              && Account(r.photo.value.photo.accountId, name, r.photo.value.ownerAvatar) in s.accounts
    ensures r.comments == CommentsOfPhoto(s, photoId)
    ensures |r.likes| == |LikeRowsOfPhoto(s, photoId)|
    ensures Valid(s) ==> |r.comments| == |CommentsOn(s.comments, photoId)| && |r.likes| == |LikesOn(s.likes, photoId)|
    ensures forall i :: 0 <= i < |r.likes| ==>
              r.likes[i] == Liker(LikeRowsOfPhoto(s, photoId)[i].liker.name, LikeRowsOfPhoto(s, photoId)[i].liker.avatar)
  {
    var rows := LikeRowsOfPhoto(s, photoId);
    Details(
      PhotoOfOwner(s.photos, s.accounts, name, photoId),
      CommentsOfPhoto(s, photoId),
      seq(|rows|, i requires 0 <= i < |rows| => Liker(rows[i].liker.name, rows[i].liker.avatar)))
  }
}

=== FILE: page_server.dfy ===
/** The `post` action of the upload page: the authentication and form
    guards, the storage key built from the file extension, the insert, and
    the redirect to the new photo. The object-store upload is a parameter
    mapping a key to the URL the store hands back. */
module PageServer {
  import opened Wrappers
  import opened Tables
  import Database
  import Text

  /** The uploaded file; only its name matters here. */
  datatype File = File(name: string)

  /** The form fields the action reads; a field may be missing. */
  datatype Form = Form(file: Option<File>, description: Option<string>, width: Option<string>, height: Option<string>)

  /** How the action ends: an HTTP error, a redirect, or an error raised by
      the database that propagates out of the action. */
  datatype Outcome = Status(code: nat) | Redirect(code: nat, location: string) | Raised(error: DbError)

  /** What one request leaves behind: its outcome, the database after it,
      and the keys handed to `blob.put`, in call order. */
  datatype Reply = Reply(outcome: Outcome, store: Store, uploaded: seq<string>)

  const Unauthorized: nat := 401
  const Unprocessable: nat := 422
  const SeeOther: nat := 303

  /** JavaScript truthiness of a form string: missing or empty is falsy. */
  predicate Falsy(v: Option<string>) {
    v.None? || v.value == ""
  }

  /** Both guards pass: someone is logged in, and the form has a file and a
      non-empty description. */
  predicate Accepted(account: Option<Account>, form: Form) {
    account.Some? && form.file.Some? && !Falsy(form.description)
  }

  /** `${account.id}/${Date.now()}.${ext}` with `ext` the last dot-separated
      segment of the file name. The key keeps the file's extension. */
  function BlobKey(accountId: Id, clock: nat, fileName: string): (r: string)
    ensures Text.Extension(r) == Text.Extension(fileName)
    ensures |accountId| < |r| && r[..|accountId| + 1] == accountId + "/"
    ensures r == accountId + ['/'] + (Text.Decimal(clock) + ['.'] + Text.Extension(fileName))
  {
    var ext := Text.Extension(fileName);
    var digits := Text.Decimal(clock);
    var stem := accountId + "/" + digits;
    assert stem + "." + ext == accountId + ['/'] + (digits + ['.'] + ext);
    Text.ExtensionAfterDot(stem, ext);
    stem + "." + ext
  }

  /** The three components a storage key is built from. */
  datatype KeyParts = KeyParts(accountId: Id, clock: nat, ext: string)

  /** Reads a storage key back into its components. */
  function ParseBlobKey(key: string): Option<KeyParts> {
    var halves := Text.Split(key, '/');
    if |halves| != 2 then None
    else
      var pieces := Text.Split(halves[1], '.');
      if |pieces| != 2 || pieces[0] == [] || !Text.AllDigits(pieces[0]) then None
      else Some(KeyParts(halves[0], Text.ParseDecimal(pieces[0]), pieces[1]))
  }

  /** A key made for an account id and a file name without slashes reads
      back as the account, the clock reading and the extension. */
  lemma BlobKeyRoundTrip(accountId: Id, clock: nat, fileName: string)
    requires '/' !in accountId && '/' !in fileName
    ensures ParseBlobKey(BlobKey(accountId, clock, fileName))
            == Some(KeyParts(accountId, clock, Text.Extension(fileName)))
  {
    var digits := Text.Decimal(clock);
    var ext := Text.Extension(fileName);
    KeyHalves(accountId, clock, fileName);
    TailPieces(clock, fileName);
    Text.DecimalRoundTrip(clock);
    assert Text.AllDigits(digits) && digits != [];
  }

  /** Split at '/', a key is the account id and the rest. */
  lemma KeyHalves(accountId: Id, clock: nat, fileName: string)
    requires '/' !in accountId && '/' !in fileName
    ensures Text.Split(BlobKey(accountId, clock, fileName), '/')
            == [accountId, Text.Decimal(clock) + ['.'] + Text.Extension(fileName)]
  {
    var ext := Text.Extension(fileName);
    var digits := Text.Decimal(clock);
    var tail := digits + ['.'] + ext;
    assert '/' !in ext by {
      forall i | 0 <= i < |ext| ensures ext[i] != '/' {
        assert ext[i] == fileName[|fileName| - |ext| + i];
      }
    }
    assert '/' !in digits by {
      forall i | 0 <= i < |digits| ensures digits[i] != '/' {
        assert Text.IsDigit(digits[i]);
      }
    }
    Text.SplitInTwo(accountId, tail, '/');
  }

  /** Split at '.', the rest of a key is the clock digits and the extension. */
  lemma TailPieces(clock: nat, fileName: string)
    ensures Text.Split(Text.Decimal(clock) + ['.'] + Text.Extension(fileName), '.')
            == [Text.Decimal(clock), Text.Extension(fileName)]
  {
    var digits := Text.Decimal(clock);
    assert '.' !in digits by {
      forall i | 0 <= i < |digits| ensures digits[i] != '.' {
        assert Text.IsDigit(digits[i]);
      }
    }
    Text.SplitInTwo(digits, Text.Extension(fileName), '.');
  }

  /** The action with the third argument of `create_photo` left open:
      `argument` says which form value ends up in the description column. */
  function Handle(s: Store, account: Option<Account>, form: Form, clock: nat, dbClock: nat,
                  upload: string -> string, photoId: Id, argument: Form -> string): (r: Reply)
    ensures !Accepted(account, form) ==>
              r == Reply(Status(if account.None? then Unauthorized else Unprocessable), s, [])
    ensures Accepted(account, form) ==> r.uploaded == [BlobKey(account.value.id, clock, form.file.value.name)]
    ensures Accepted(account, form) && account.value.id !in AccountIds(s.accounts) ==>
              r.outcome == Raised(ForeignKeyViolation) && r.store == s
    ensures Accepted(account, form) && account.value.id in AccountIds(s.accounts) ==>
                  && r.outcome == Redirect(SeeOther, "/" + account.value.name + "/" + photoId)
                  && r.store == s.(photos := s.photos + [Photo(photoId, account.value.id,
                                                          upload(BlobKey(account.value.id, clock, form.file.value.name)),
                                                          argument(form), dbClock)])
  {
    if account.None? then Reply(Status(Unauthorized), s, [])
    else if form.file.None? || Falsy(form.description) then Reply(Status(Unprocessable), s, [])
    else
      var a := account.value;
      var key := BlobKey(a.id, clock, form.file.value.name);
      var url := upload(key);
      var (after, created) := Database.CreatePhoto(s, a.id, url, argument(form), photoId, dbClock);
      match created
      case Success(p) => Reply(Redirect(SeeOther, "/" + a.name + "/" + p.photo.id), after, [key])
      case Failure(e) => Reply(Raised(e), after, [key])
  }

  /** The action as the source calls it: five arguments to a three-parameter
      function, so the description column receives `+width`. `coerce` stands
      for that numeric conversion, which is not modelled. */
  function PostAsWritten(s: Store, account: Option<Account>, form: Form, clock: nat, dbClock: nat,
                         upload: string -> string, photoId: Id, coerce: Option<string> -> string): (r: Reply)
    ensures !Accepted(account, form) ==> r == Post(s, account, form, clock, dbClock, upload, photoId)
    ensures Accepted(account, form) ==> r.uploaded == [BlobKey(account.value.id, clock, form.file.value.name)]
    ensures Accepted(account, form) && account.value.id in AccountIds(s.accounts) ==>
              && r.outcome == Redirect(SeeOther, "/" + account.value.name + "/" + photoId)
              && |r.store.photos| == |s.photos| + 1
              && r.store.photos[|s.photos|].description == coerce(form.width)
  {
    Handle(s, account, form, clock, dbClock, upload, photoId, (f: Form) => coerce(f.width))
  }

  /** The action with the description passed where `create_photo` expects
      it. Both guards answer before anything is uploaded; once they pass,
      the file is uploaded even when the insert then fails, which leaves
      the blob without a photo row. */
  function Post(s: Store, account: Option<Account>, form: Form, clock: nat, dbClock: nat,
                upload: string -> string, photoId: Id): (r: Reply)
    ensures account.None? ==> r == Reply(Status(Unauthorized), s, [])
    ensures account.Some? && (form.file.None? || Falsy(form.description)) ==> r == Reply(Status(Unprocessable), s, [])
    ensures Accepted(account, form) ==> r.uploaded == [BlobKey(account.value.id, clock, form.file.value.name)]
    ensures Accepted(account, form) && account.value.id !in AccountIds(s.accounts) ==>
              r.outcome == Raised(ForeignKeyViolation) && r.store == s
    ensures Accepted(account, form) && account.value.id in AccountIds(s.accounts) ==>
                  && r.outcome == Redirect(SeeOther, "/" + account.value.name + "/" + photoId)
                  && r.store == s.(photos := s.photos + [Photo(photoId, account.value.id,
                                                          upload(BlobKey(account.value.id, clock, form.file.value.name)),
                                                          form.description.value, dbClock)])
  {
    Handle(s, account, form, clock, dbClock, upload, photoId, (f: Form) => f.description.GetOr(""))
  }

  /** As written, a form whose description is "a cat" and whose width is
      "640" gets a photo whose description is "640". */
  lemma AsWrittenDropsDescription(s: Store, account: Account, file: File, clock: nat, dbClock: nat,
                                  upload: string -> string, photoId: Id, coerce: Option<string> -> string)
    requires account.id in AccountIds(s.accounts)
    requires coerce(Some("640")) == "640"
    ensures var form := Form(Some(file), Some("a cat"), Some("640"), None);
            var r := PostAsWritten(s, Some(account), form, clock, dbClock, upload, photoId, coerce);
            && r.outcome == Redirect(SeeOther, "/" + account.name + "/" + photoId)
            && r.store.photos[|s.photos|].description == "640"
            && r.store.photos[|s.photos|].description != form.description.value
  {
    var form := Form(Some(file), Some("a cat"), Some("640"), None);
    assert Accepted(Some(account), form);
  }
}

=== FILE: properties.dfy ===
/** Properties that relate several operations of the database module: the
    table constraints each transition preserves, what the lookups see after
    a login, a logout or an insert, and the ownership cross-check. */
module Properties {
  import opened Wrappers
  import opened Tables
  import opened Database

  // ---------------------------------------------------------------------
  // Lookups under the table constraints
  // ---------------------------------------------------------------------

  /** Under the primary keys, a session resolves to exactly its account. */
  lemma SessionResolves(s: Store, se: Session, a: Account)
    requires Valid(s)
    requires se in s.sessions && a in s.accounts && a.id == se.accountId
    ensures GetAccountFromSessionId(s, se.id) == Some(a)
  {
    var r := GetAccountFromSessionId(s, se.id);
    assert se.accountId in AccountIds(s.accounts);
    assert Session(se.id, r.value.id) in s.sessions;
    var i :| 0 <= i < |s.sessions| && s.sessions[i] == se;
    var j :| 0 <= j < |s.sessions| && s.sessions[j] == Session(se.id, r.value.id);
    assert i == j;
    AccountByIdFinds(s.accounts, a);
    AccountByIdFinds(s.accounts, r.value);
  }

  /** The first element of a non-empty sequence is a member of it. */
  lemma HeadIsMember<T>(xs: seq<T>)
    requires xs != []
    ensures xs[0] in xs
  {
  }

  // ---------------------------------------------------------------------
  // login
  // ---------------------------------------------------------------------

  /** The upsert keeps ids and names unique and keeps every id. */
  lemma UpsertKeepsKeys(accounts: seq<Account>, name: string, avatar: string, freshId: Id)
    requires UniqueAccounts(accounts)
    requires freshId !in AccountIds(accounts)
    ensures UniqueAccounts(UpsertAccount(accounts, name, avatar, freshId).0)
    ensures AccountIds(accounts) <= AccountIds(UpsertAccount(accounts, name, avatar, freshId).0)
  {
    var r := UpsertAccount(accounts, name, avatar, freshId).0;
    if name in AccountNames(accounts) {
      forall id | id in AccountIds(accounts) ensures id in AccountIds(r) {
        var a :| a in accounts && a.id == id;
        var i :| 0 <= i < |accounts| && accounts[i] == a;
        assert r[i] in r;
      }
    } else {
      forall i | 0 <= i < |accounts| ensures r[i].id != freshId && r[i].name != name {
        assert accounts[i] in accounts;
      }
    }
  }

  /** `login` keeps every table constraint, in particular one account per name. */
  lemma LoginPreservesValid(s: Store, name: string, avatar: string, accountId: Id, sessionId: Id, fault: Fault)
    requires Valid(s)
    requires accountId !in AccountIds(s.accounts)
    requires sessionId !in SessionIds(s.sessions)
    ensures Valid(Login(s, name, avatar, accountId, sessionId, fault).0)
  {
    var r := Login(s, name, avatar, accountId, sessionId, fault);
    if r.1.Success? {
      var t := r.0;
      UpsertKeepsKeys(s.accounts, name, avatar, accountId);
      var owner := UpsertAccount(s.accounts, name, avatar, accountId).1;
      assert Account(owner, name, avatar) in t.accounts;
      assert owner in AccountIds(t.accounts);
      forall i, j | 0 <= i < j < |t.sessions| ensures t.sessions[i].id != t.sessions[j].id {
        if j == |s.sessions| {
          assert s.sessions[i] in s.sessions;
        }
      }
      forall se | se in t.sessions ensures se.accountId in AccountIds(t.accounts) {
        if se !in s.sessions {
          assert se == Session(sessionId, owner);
        }
      }
    }
  }

  /** The session a login returns resolves to the logged-in account, which
      now carries the given name and avatar; looking the name up finds the
      same account. */
  lemma LoginThenResolve(s: Store, name: string, avatar: string, accountId: Id, sessionId: Id)
    requires Valid(s)
    requires accountId !in AccountIds(s.accounts)
    requires sessionId !in SessionIds(s.sessions)
    ensures var r := Login(s, name, avatar, accountId, sessionId, Healthy);
            var a := Account(r.0.sessions[|s.sessions|].accountId, name, avatar);
            && r.1 == Success(sessionId)
            && GetAccountFromSessionId(r.0, sessionId) == Some(a)
            && GetAccountFromName(r.0, name) == Some(a)
  {
    var r := Login(s, name, avatar, accountId, sessionId, Healthy);
    var a := Account(r.0.sessions[|s.sessions|].accountId, name, avatar);
    LoginPreservesValid(s, name, avatar, accountId, sessionId, Healthy);
    SessionResolves(r.0, r.0.sessions[|s.sessions|], a);
    AccountByNameFinds(r.0.accounts, a);
  }

  /** Upserting a taken name returns that account's id, adds no row,
      gives that account the new avatar and leaves every other row alone. */
  lemma UpsertExisting(accounts: seq<Account>, a: Account, avatar: string, freshId: Id)
    requires UniqueAccounts(accounts)
    requires a in accounts
    ensures var r := UpsertAccount(accounts, a.name, avatar, freshId);
            && r.1 == a.id
            && |r.0| == |accounts|
            && a.(avatar := avatar) in r.0
            && (forall b :: b in accounts && b != a ==> b in r.0)
  {
    var r := UpsertAccount(accounts, a.name, avatar, freshId);
    assert a.name in AccountNames(accounts);
    var k :| 0 <= k < |accounts| && accounts[k].name == a.name && accounts[k].id == r.1;
    var i :| 0 <= i < |accounts| && accounts[i] == a;
    assert k == i;
    assert r.0[i].id == a.id && r.0[i].name == a.name && r.0[i].avatar == avatar;
    assert r.0[i] == a.(avatar := avatar);
    forall b | b in accounts && b != a ensures b in r.0 {
      var j :| 0 <= j < |accounts| && accounts[j] == b;
      assert j != i;
      assert accounts[j].name != a.name;
      assert r.0[j].id == b.id && r.0[j].name == b.name && r.0[j].avatar == b.avatar;
      assert r.0[j] == b;
    }
  }

  /** Logging in under a taken name reuses that account: no account is
      added, its id is kept, only its avatar changes, and every other
      account is untouched. */
  lemma LoginReusesAccount(s: Store, a: Account, avatar: string, accountId: Id, sessionId: Id)
    requires Valid(s)
    requires a in s.accounts
    requires accountId !in AccountIds(s.accounts)
    requires sessionId !in SessionIds(s.sessions)
    ensures var r := Login(s, a.name, avatar, accountId, sessionId, Healthy);
            && |r.0.accounts| == |s.accounts|
            && r.0.sessions[|s.sessions|] == Session(sessionId, a.id)
            && GetAccountFromName(r.0, a.name) == Some(a.(avatar := avatar))
            && (forall b :: b in s.accounts && b != a ==> b in r.0.accounts)
  {
    UpsertExisting(s.accounts, a, avatar, accountId);
    LoginThenResolve(s, a.name, avatar, accountId, sessionId);
  }

  /** `login(N, A1)` then `login(N, A2)`: both sessions resolve to the same
      account id, which now has avatar `A2`, and the second login adds no
      account. */
  lemma LoginTwice(s: Store, name: string, avatar1: string, avatar2: string,
                   accountId1: Id, sessionId1: Id, accountId2: Id, sessionId2: Id)
    requires Valid(s)
    requires accountId1 !in AccountIds(s.accounts) && sessionId1 !in SessionIds(s.sessions)
    requires accountId2 !in AccountIds(Login(s, name, avatar1, accountId1, sessionId1, Healthy).0.accounts)
    requires sessionId2 !in SessionIds(Login(s, name, avatar1, accountId1, sessionId1, Healthy).0.sessions)
    ensures var s1 := Login(s, name, avatar1, accountId1, sessionId1, Healthy).0;
            var s2 := Login(s1, name, avatar2, accountId2, sessionId2, Healthy).0;
            && |s2.accounts| == |s1.accounts|
            && GetAccountFromSessionId(s1, sessionId1).Some?
            && GetAccountFromSessionId(s2, sessionId2) == Some(GetAccountFromSessionId(s1, sessionId1).value.(avatar := avatar2))
            && GetAccountFromSessionId(s2, sessionId1) == GetAccountFromSessionId(s2, sessionId2)
  {
    var s1 := Login(s, name, avatar1, accountId1, sessionId1, Healthy).0;
    LoginThenResolve(s, name, avatar1, accountId1, sessionId1);
    LoginPreservesValid(s, name, avatar1, accountId1, sessionId1, Healthy);
    var a := GetAccountFromSessionId(s1, sessionId1).value;
    LoginReusesAccount(s1, a, avatar2, accountId2, sessionId2);
    var s2 := Login(s1, name, avatar2, accountId2, sessionId2, Healthy).0;
    LoginThenResolve(s1, name, avatar2, accountId2, sessionId2);
    LoginPreservesValid(s1, name, avatar2, accountId2, sessionId2, Healthy);
    var b := a.(avatar := avatar2);
    assert b in s2.accounts;
    assert Session(sessionId1, a.id) in s2.sessions;
    SessionResolves(s2, Session(sessionId1, a.id), b);
  }

  // ---------------------------------------------------------------------
  // logout
  // ---------------------------------------------------------------------

  /** `logout` keeps every table constraint. */
  lemma LogoutPreservesValid(s: Store, sid: Id)
    requires Valid(s)
    ensures Valid(Logout(s, sid))
  {
    RemoveKeepsUnique(s.sessions, sid);
  }

  /** Deleting rows from a table with unique ids leaves the ids unique. */
  lemma {:induction false} RemoveKeepsUnique(sessions: seq<Session>, sid: Id)
    requires UniqueSessions(sessions)
    ensures UniqueSessions(RemoveSession(sessions, sid))
  {
    if sessions != [] {
      var tail := sessions[1..];
      assert sessions == [sessions[0]] + tail;
      UniqueSplit(sessions[0], tail);
      RemoveKeepsUnique(tail, sid);
      if sessions[0].id != sid {
        var rest := RemoveSession(tail, sid);
        assert RemoveSession(sessions, sid) == [sessions[0]] + rest;
        forall se | se in rest ensures se.id != sessions[0].id {
          assert se in tail;
        }
        UniqueCons(sessions[0], rest);
      }
    }
  }

  /** A table with unique ids has a unique tail whose ids all differ from
      the head's. */
  lemma UniqueSplit(h: Session, t: seq<Session>)
    requires UniqueSessions([h] + t)
    ensures UniqueSessions(t)
    ensures forall se :: se in t ==> se.id != h.id
  {
    var r := [h] + t;
    forall i, j | 0 <= i < j < |t| ensures t[i].id != t[j].id {
      assert t[i] == r[i + 1] && t[j] == r[j + 1];
    }
    forall se | se in t ensures se.id != h.id {
      var m :| 0 <= m < |t| && t[m] == se;
      assert r[0] == h && r[m + 1] == se;
      assert r[0].id != r[m + 1].id;
    }
  }

  /** A head whose id is new to a unique tail keeps the ids unique. */
  lemma UniqueCons(h: Session, t: seq<Session>)
    requires UniqueSessions(t)
    requires forall se :: se in t ==> se.id != h.id
    ensures UniqueSessions([h] + t)
  {
    var r := [h] + t;
    forall i, j | 0 <= i < j < |r| ensures r[i].id != r[j].id {
      assert r[j] == t[j - 1];
      if i > 0 {
        assert r[i] == t[i - 1];
      }
    }
  }

  /** Logging out twice is logging out once. */
  lemma LogoutIdempotent(s: Store, sid: Id)
    ensures Logout(Logout(s, sid), sid) == Logout(s, sid)
  {
    var t := Logout(s, sid);
    assert sid !in SessionIds(t.sessions);
  }

  /** Logging out one token leaves every other token resolving as before. */
  lemma LogoutKeepsOtherSessions(s: Store, sid: Id, other: Id)
    requires Valid(s)
    requires other != sid
    ensures GetAccountFromSessionId(Logout(s, sid), other) == GetAccountFromSessionId(s, other)
  {
    var t := Logout(s, sid);
    LogoutPreservesValid(s, sid);
    var before := GetAccountFromSessionId(s, other);
    if before.Some? {
      var se := Session(other, before.value.id);
      assert se in t.sessions;
      SessionResolves(s, se, before.value);
      SessionResolves(t, se, before.value);
    }
  }

  // ---------------------------------------------------------------------
  // create_photo and the photo queries
  // ---------------------------------------------------------------------

  /** `create_photo` with a fresh id keeps every table constraint. */
  lemma CreatePhotoPreservesValid(s: Store, accountId: Id, url: string, description: string, photoId: Id, now: nat)
    requires Valid(s)
    requires photoId !in PhotoIds(s.photos)
    ensures Valid(CreatePhoto(s, accountId, url, description, photoId, now).0)
  {
    var t := CreatePhoto(s, accountId, url, description, photoId, now).0;
    assert PhotoIds(s.photos) <= PhotoIds(t.photos);
    forall i, j | 0 <= i < j < |t.photos| ensures t.photos[i].id != t.photos[j].id {
      if j == |s.photos| {
        assert s.photos[i] in s.photos;
      }
    }
  }

  /** A photo with no like rows and no comment rows still forms a group
      under the LEFT JOINs, with both counts 0; and a count is 0 only then. */
  lemma CountsZeroIffNoRows(s: Store, p: Photo)
    ensures var sum := Summarize(s, p);
            && (sum.numLikes == 0 <==> forall l :: l in s.likes ==> l.photoId != p.id)
            && (sum.numComments == 0 <==> forall c :: c in s.comments ==> c.photoId != p.id)
    ensures (forall l :: l in s.likes ==> l.photoId != p.id) && (forall c :: c in s.comments ==> c.photoId != p.id)
            ==> LeftJoin(s, p.id) == [JoinRow(None, None)]
  {
    forall l | l in s.likes && l.photoId == p.id ensures l.accountId in Likers(s.likes, p.id) { }
    forall c | c in s.comments && c.photoId == p.id ensures c.id in CommentIds(s.comments, p.id) { }
    if (forall l :: l in s.likes ==> l.photoId != p.id) && (forall c :: c in s.comments ==> c.photoId != p.id) {
      var ls := LikesOn(s.likes, p.id);
      var cs := CommentsOn(s.comments, p.id);
      if ls != [] {
        HeadIsMember(ls);
        assert false;
      }
      if cs != [] {
        HeadIsMember(cs);
        assert false;
      }
      var rows := LeftJoin(s, p.id);
      assert |rows| == 1;
      assert rows[0] in rows;
    }
  }

  /** Why the counts are distinct: a photo with a like and two comments
      has more join rows in its group than it has likers, so counting rows
      would inflate `num_likes`. */
  lemma FanOutExceedsLikers(s: Store, photoId: Id, l: Like, c1: Comment, c2: Comment)
    requires l in s.likes && l.photoId == photoId
    requires c1 in s.comments && c2 in s.comments && c1.photoId == photoId && c2.photoId == photoId
    requires c1 != c2
    ensures |LeftJoin(s, photoId)| > CountDistinctLikers(LeftJoin(s, photoId))
  {
    var ls := LikesOn(s.likes, photoId);
    var cs := CommentsOn(s.comments, photoId);
    assert l in ls;
    assert c1 in cs && c2 in cs;
    TwoMembers(cs, c1, c2);
    DistinctCountsIgnoreFanOut(s, photoId);
    LikersWithin(s.likes, photoId);
    ProductExceeds(|ls|, |cs|);
  }

  /** Two different members make a sequence at least two long. */
  lemma TwoMembers<T>(xs: seq<T>, x: T, y: T)
    requires x in xs && y in xs && x != y
    ensures |xs| >= 2
  {
    var i :| 0 <= i < |xs| && xs[i] == x;
    var j :| 0 <= j < |xs| && xs[j] == y;
    assert i != j;
  }

  lemma ProductExceeds(a: nat, b: nat)
    requires a >= 1 && b >= 2
    ensures a * b > a
  {
    assert a * b == a * (b - 1) + a;
  }

  /** There are no more likers of a photo than like rows on it. */
  lemma LikersWithin(likes: seq<Like>, photoId: Id)
    ensures |Likers(likes, photoId)| <= |LikesOn(likes, photoId)|
  {
    var ls := LikesOn(likes, photoId);
    assert Likers(likes, photoId) == set l | l in ls :: l.accountId;
    ImageWithin(ls);
  }

  /** The account ids of a sequence of likes are at most as many as the likes. */
  lemma {:induction false} ImageWithin(ls: seq<Like>)
    ensures |set l | l in ls :: l.accountId| <= |ls|
  {
    if ls != [] {
      ImageWithin(ls[1..]);
      assert ls == [ls[0]] + ls[1..];
      assert (set l | l in ls :: l.accountId) == {ls[0].accountId} + set l | l in ls[1..] :: l.accountId;
    }
  }

  /** A listing that is ordered newest first and cuts off no newer photo of
      the owner starts with a photo at least as new as any of the owner's. */
  lemma ListingHeadIsNewest(photos: seq<Photo>, accountId: Id, r: seq<PhotoSummary>, p: Photo)
    requires p in photos && p.accountId == accountId
    requires |r| >= 1
    requires forall i, j :: 0 <= i < j < |r| ==> r[i].photo.createdAt >= r[j].photo.createdAt
    requires forall q, i :: q in photos && q.accountId == accountId && 0 <= i < |r| && r[i].photo.createdAt < q.createdAt
               ==> q in PhotosOf(r)
    ensures r[0].photo.createdAt >= p.createdAt
    ensures r[0].photo in photos && (forall q :: q in photos ==> q == p || q.createdAt < p.createdAt) ==> r[0].photo == p
  {
  }

  /** A photo just inserted, newer than every photo already stored, heads
      its owner's listing with no likes and no comments. */
  lemma CreateThenList(s: Store, owner: Account, url: string, description: string, photoId: Id, now: nat)
    requires Valid(s)
    requires owner in s.accounts
    requires photoId !in PhotoIds(s.photos)
    requires forall q :: q in s.photos ==> q.createdAt < now
    ensures var r := CreatePhoto(s, owner.id, url, description, photoId, now);
            && r.1.Success?
            && |GetPhotosFromAccountId(r.0, owner.id)| >= 1
            && GetPhotosFromAccountId(r.0, owner.id)[0] == PhotoSummary(r.1.value.photo, 0, 0)
  {
    assert owner.id in AccountIds(s.accounts);
    var p := Photo(photoId, owner.id, url, description, now);
    var t := s.(photos := s.photos + [p]);
    FreshPhotoHasNoChildren(s, photoId);
    assert forall q :: q in t.photos ==> q == p || q.createdAt < p.createdAt;
    NewestHeadsListing(t, p);
  }

  /** A photo with no likes and no comments that is strictly newer than
      every other stored photo heads its owner's listing with zero counts. */
  lemma NewestHeadsListing(t: Store, p: Photo)
    requires p in t.photos
    requires forall q :: q in t.photos ==> q == p || q.createdAt < p.createdAt
    requires Likers(t.likes, p.id) == {} && CommentIds(t.comments, p.id) == {}
    ensures |GetPhotosFromAccountId(t, p.accountId)| >= 1
    ensures GetPhotosFromAccountId(t, p.accountId)[0] == PhotoSummary(p, 0, 0)
  {
    var listing := GetPhotosFromAccountId(t, p.accountId);
    assert p in OwnedBy(t.photos, p.accountId);
    assert |listing| >= 1;
    ListingHeadIsNewest(t.photos, p.accountId, listing, p);
    assert listing[0].photo == p;
  }

  /** Under the foreign keys, a photo id not yet stored has no likers and
      no comments. */
  lemma FreshPhotoHasNoChildren(s: Store, photoId: Id)
    requires Valid(s)
    requires photoId !in PhotoIds(s.photos)
    ensures Likers(s.likes, photoId) == {}
    ensures CommentIds(s.comments, photoId) == {}
  {
    forall l | l in s.likes ensures l.photoId != photoId {
      assert l.photoId in PhotoIds(s.photos);
    }
    forall c | c in s.comments ensures c.photoId != photoId {
      assert c.photoId in PhotoIds(s.photos);
    }
  }

  /** A photo just inserted is found under its owner's name, with empty
      comment and like lists. */
  lemma CreateThenDetails(s: Store, owner: Account, url: string, description: string, photoId: Id, now: nat)
    requires Valid(s)
    requires owner in s.accounts
    requires photoId !in PhotoIds(s.photos)
    ensures var r := CreatePhoto(s, owner.id, url, description, photoId, now);
            && r.1.Success?
            && GetPhotoDetails(r.0, owner.name, photoId)
               == Details(Some(PhotoDetail(r.1.value.photo, owner.name, owner.avatar)), [], [])
  {
    var r := CreatePhoto(s, owner.id, url, description, photoId, now);
    assert owner.id in AccountIds(s.accounts);
    var t := r.0;
    var p := r.1.value.photo;
    assert p in t.photos;
    CreatePhotoPreservesValid(s, owner.id, url, description, photoId, now);
    var d := GetPhotoDetails(t, owner.name, photoId);
    assert d.photo.Some?;
    var found := d.photo.value;
    assert found.photo == p;
    var a := Account(p.accountId, owner.name, found.ownerAvatar);
    assert a in t.accounts;
    AccountByIdFinds(t.accounts, a);
    AccountByIdFinds(t.accounts, owner);
    var comments := CommentsOfPhoto(t, photoId);
    if comments != [] {
      HeadIsMember(comments);
      assert false;
    }
    var likes := LikeRowsOfPhoto(t, photoId);
    if likes != [] {
      HeadIsMember(likes);
      assert false;
    }
  }

  /** The ownership cross-check: a photo id that exists is not shown under
      the name of an account that does not own it. */
  lemma DetailsCheckOwner(s: Store, p: Photo, owner: Account, name: string)
    requires Valid(s)
    requires p in s.photos && owner in s.accounts && owner.id == p.accountId
    requires owner.name != name
    ensures GetPhotoDetails(s, name, p.id).photo == None
  {
    OnlyOwnerJoins(s, p, owner);
  }

  /** Under the primary keys, the only account joined with a photo's id is
      the photo's owner. */
  lemma OnlyOwnerJoins(s: Store, p: Photo, owner: Account)
    requires Valid(s)
    requires p in s.photos && owner in s.accounts && owner.id == p.accountId
    ensures forall q, a :: q in s.photos && a in s.accounts && q.id == p.id && q.accountId == a.id ==> a == owner
  {
    forall q, a | q in s.photos && a in s.accounts && q.id == p.id && q.accountId == a.id
      ensures a == owner
    {
      var i :| 0 <= i < |s.photos| && s.photos[i] == q;
      var j :| 0 <= j < |s.photos| && s.photos[j] == p;
      assert i == j;
      var k :| 0 <= k < |s.accounts| && s.accounts[k] == a;
      var m :| 0 <= m < |s.accounts| && s.accounts[m] == owner;
      assert k == m;
    }
  }

  /** The comment and like lists are selected by the photo id alone: they
      are the same whatever name is asked for, even when the photo itself
      is absent under that name. */
  lemma DetailsListsIgnoreName(s: Store, name1: string, name2: string, photoId: Id)
    ensures GetPhotoDetails(s, name1, photoId).comments == GetPhotoDetails(s, name2, photoId).comments
    ensures GetPhotoDetails(s, name1, photoId).likes == GetPhotoDetails(s, name2, photoId).likes
  {
  }
}

=== FILE: route_properties.dfy ===
/** Properties of the upload action that reach into the database: the
    redirect it answers with names a page that shows the new photo. */
module RouteProperties {
  import opened Wrappers
  import opened Tables
  import opened Database
  import opened PageServer
  import Properties

  /** A logged-in account posting a file and a description gets exactly one
      new photo, owned by it, stored under the URL the upload returned; the
      redirect's `/<name>/<id>` path finds that photo, and the store stays
      within its constraints. */
  lemma RedirectTargetResolves(s: Store, account: Account, form: Form, clock: nat, dbClock: nat,
                               upload: string -> string, photoId: Id)
    requires Valid(s)
    requires account in s.accounts
    requires photoId !in PhotoIds(s.photos)
    requires Accepted(Some(account), form)
    ensures var r := Post(s, Some(account), form, clock, dbClock, upload, photoId);
            var url := upload(BlobKey(account.id, clock, form.file.value.name));
            var p := Photo(photoId, account.id, url, form.description.value, dbClock);
            && r.outcome == Redirect(SeeOther, "/" + account.name + "/" + photoId)
            && GetPhotoDetails(r.store, account.name, photoId).photo == Some(PhotoDetail(p, account.name, account.avatar))
            && Valid(r.store)
  {
    assert account.id in AccountIds(s.accounts);
    var url := upload(BlobKey(account.id, clock, form.file.value.name));
    Properties.CreateThenDetails(s, account, url, form.description.value, photoId, dbClock);
    Properties.CreatePhotoPreservesValid(s, account.id, url, form.description.value, photoId, dbClock);
  }

  /** Whatever the action answers, and whatever it stores as the
      description, the store keeps its constraints. */
  lemma HandlePreservesValid(s: Store, account: Option<Account>, form: Form, clock: nat, dbClock: nat,
                             upload: string -> string, photoId: Id, argument: Form -> string)
    requires Valid(s)
    requires photoId !in PhotoIds(s.photos)
    ensures Valid(Handle(s, account, form, clock, dbClock, upload, photoId, argument).store)
  {
    if Accepted(account, form) && account.value.id in AccountIds(s.accounts) {
      var a := account.value;
      var url := upload(BlobKey(a.id, clock, form.file.value.name));
      Properties.CreatePhotoPreservesValid(s, a.id, url, argument(form), photoId, dbClock);
    }
  }

  /** The corrected action keeps the store's constraints. */
  lemma PostPreservesValid(s: Store, account: Option<Account>, form: Form, clock: nat, dbClock: nat,
                           upload: string -> string, photoId: Id)
    requires Valid(s)
    requires photoId !in PhotoIds(s.photos)
    ensures Valid(Post(s, account, form, clock, dbClock, upload, photoId).store)
  {
    HandlePreservesValid(s, account, form, clock, dbClock, upload, photoId, (f: Form) => f.description.GetOr(""));
  }

  /** The action as written keeps the store's constraints too: its fault is
      in the value stored, not in the shape of the store. */
  lemma PostAsWrittenPreservesValid(s: Store, account: Option<Account>, form: Form, clock: nat, dbClock: nat,
                                    upload: string -> string, photoId: Id, coerce: Option<string> -> string)
    requires Valid(s)
    requires photoId !in PhotoIds(s.photos)
    ensures Valid(PostAsWritten(s, account, form, clock, dbClock, upload, photoId, coerce).store)
  {
    HandlePreservesValid(s, account, form, clock, dbClock, upload, photoId, (f: Form) => coerce(f.width));
  }
}

=== FILE: sorting.dfy ===
/** Ordering of query results by a timestamp column, `ORDER BY … DESC`.
    Rows with equal keys may come out in any order, so the specification
    only says the keys are non-increasing and nothing is lost or added. */
module Sorting {

  /** Keys never increase along `xs`. */
  predicate SortedDesc<T>(xs: seq<T>, key: T -> nat) {
    forall i, j :: 0 <= i < j < |xs| ==> key(xs[i]) >= key(xs[j])
  }

  /** Inserts `x` in front of the first element whose key is not larger. */
  function Insert<T>(x: T, xs: seq<T>, key: T -> nat): (r: seq<T>)
    requires SortedDesc(xs, key)
    ensures SortedDesc(r, key)
    ensures multiset(r) == multiset(xs) + multiset{x}
  {
    if xs == [] || key(xs[0]) <= key(x) then
      SortedCons(x, xs, key);
      [x] + xs
    else
      SortedTail(xs, key);
      var rest := Insert(x, xs[1..], key);
      assert xs == [xs[0]] + xs[1..];
      forall y | y in rest ensures key(y) <= key(xs[0]) {
        assert y in multiset(rest);
      }
      SortedCons(xs[0], rest, key);
      [xs[0]] + rest
  }

  /** The tail of a sorted sequence is sorted and bounded by its head. */
  lemma SortedTail<T>(xs: seq<T>, key: T -> nat)
    requires SortedDesc(xs, key)
    requires xs != []
    ensures SortedDesc(xs[1..], key)
    ensures forall y :: y in xs[1..] ==> key(y) <= key(xs[0])
  {
    forall y | y in xs[1..] ensures key(y) <= key(xs[0]) {
      var j :| 0 <= j < |xs[1..]| && xs[1..][j] == y;
      assert xs[j + 1] == y;
    }
  }

  /** A head no smaller than every element of a sorted tail keeps it sorted. */
  lemma SortedCons<T>(h: T, t: seq<T>, key: T -> nat)
    requires SortedDesc(t, key)
    requires forall y :: y in t ==> key(y) <= key(h)
    ensures SortedDesc([h] + t, key)
  {
    var r := [h] + t;
    forall i, j | 0 <= i < j < |r| ensures key(r[i]) >= key(r[j]) {
      assert r[j] == t[j - 1];
      if i > 0 {
        assert r[i] == t[i - 1];
      }
    }
  }

  /** A descending ordering of `xs`: same elements, keys non-increasing. */
  function SortDesc<T>(xs: seq<T>, key: T -> nat): (r: seq<T>)
    ensures SortedDesc(r, key)
    ensures multiset(r) == multiset(xs)
    ensures |r| == |xs|
  {
    if xs == [] then []
    else
      assert xs == [xs[0]] + xs[1..];
      Insert(xs[0], SortDesc(xs[1..], key), key)
  }

  /** Two arrangements of one multiset hold the same elements. */
  lemma SameElements<T>(a: seq<T>, b: seq<T>)
    requires multiset(a) == multiset(b)
    ensures forall x :: x in a <==> x in b
  {
    forall x ensures x in a <==> x in b {
      assert x in a <==> x in multiset(a);
      assert x in b <==> x in multiset(b);
    }
  }

  /** `LIMIT n` on a sorted sequence keeps its largest keys: whatever is cut
      off has a key no larger than anything kept. */
  lemma PrefixHoldsLargest<T>(xs: seq<T>, key: T -> nat, n: nat, y: T)
    requires SortedDesc(xs, key)
    requires n <= |xs|
    requires y in xs[n..]
    ensures forall i :: 0 <= i < n ==> key(y) <= key(xs[i])
  {
    var j :| 0 <= j < |xs[n..]| && xs[n..][j] == y;
    assert xs[n + j] == y;
  }
}

=== FILE: tables.dfy ===
/** The five tables the server reads and writes, held as an immutable value.
    Row order stands for the order in which the database happens to return
    rows; no query relies on it except where an `ORDER BY` fixes it. */
module Tables {
  import opened Wrappers

  /** Primary keys are generated by the database and handled as strings. */
  type Id = string

  /** `account(id, name, avatar)`; `name` carries a unique constraint. */
  datatype Account = Account(id: Id, name: string, avatar: string)

  /** `session(id, account_id)`: a bearer token bound to one account. */
  datatype Session = Session(id: Id, accountId: Id)

  /** `photo(id, account_id, url, description, created_at)`. */
  datatype Photo = Photo(id: Id, accountId: Id, url: string, description: string, createdAt: nat)

  /** `likes(photo_id, account_id, created_at)`: no key of its own. */
  datatype Like = Like(photoId: Id, accountId: Id, createdAt: nat)

  /** `comment(id, photo_id, account_id, created_at)`. */
  datatype Comment = Comment(id: Id, photoId: Id, accountId: Id, createdAt: nat)

  datatype Store = Store(
    accounts: seq<Account>,
    sessions: seq<Session>,
    photos: seq<Photo>,
    likes: seq<Like>,
    comments: seq<Comment>)

  /** What a statement can raise: a violated foreign key, or any failure of
      the driver or the connection. */
  datatype DbError = ForeignKeyViolation | DriverFailure

  function AccountIds(accounts: seq<Account>): set<Id> {
    set a | a in accounts :: a.id
  }

  function AccountNames(accounts: seq<Account>): set<string> {
    set a | a in accounts :: a.name
  }

  function SessionIds(sessions: seq<Session>): set<Id> {
    set se | se in sessions :: se.id
  }

  function PhotoIds(photos: seq<Photo>): set<Id> {
    set p | p in photos :: p.id
  }

  function CreatedAt(p: Photo): nat {
    p.createdAt
  }

  predicate UniqueAccounts(accounts: seq<Account>) {
    && (forall i, j :: 0 <= i < j < |accounts| ==> accounts[i].id != accounts[j].id)
    && (forall i, j :: 0 <= i < j < |accounts| ==> accounts[i].name != accounts[j].name)
  }

  predicate UniqueSessions(sessions: seq<Session>) {
    forall i, j :: 0 <= i < j < |sessions| ==> sessions[i].id != sessions[j].id
  }

  predicate UniquePhotos(photos: seq<Photo>) {
    forall i, j :: 0 <= i < j < |photos| ==> photos[i].id != photos[j].id
  }

  predicate UniqueComments(comments: seq<Comment>) {
    forall i, j :: 0 <= i < j < |comments| ==> comments[i].id != comments[j].id
  }

  /** The table constraints the queries rely on: primary keys, the unique
      account name, and every foreign key. */
  predicate Valid(s: Store) {
    && UniqueAccounts(s.accounts)
    && UniqueSessions(s.sessions)
    && UniquePhotos(s.photos)
    && UniqueComments(s.comments)
    && (forall se :: se in s.sessions ==> se.accountId in AccountIds(s.accounts))
    && (forall p :: p in s.photos ==> p.accountId in AccountIds(s.accounts))
    && (forall l :: l in s.likes ==> l.photoId in PhotoIds(s.photos) && l.accountId in AccountIds(s.accounts))
    && (forall c :: c in s.comments ==> c.photoId in PhotoIds(s.photos) && c.accountId in AccountIds(s.accounts))
  }

  /** First account with the given id. */
  function AccountById(accounts: seq<Account>, id: Id): (r: Option<Account>)
    ensures r.Some? <==> id in AccountIds(accounts)
    ensures r.Some? ==> r.value in accounts && r.value.id == id
  {
    if accounts == [] then None
    else if accounts[0].id == id then Some(accounts[0])
    else
      var r := AccountById(accounts[1..], id);
      assert accounts == [accounts[0]] + accounts[1..];
      r
  }

  /** First account with the given name. */
  function AccountByName(accounts: seq<Account>, name: string): (r: Option<Account>)
    ensures r.Some? <==> name in AccountNames(accounts)
    ensures r.Some? ==> r.value in accounts && r.value.name == name
  {
    if accounts == [] then None
    else if accounts[0].name == name then Some(accounts[0])
    else
      var r := AccountByName(accounts[1..], name);
      assert accounts == [accounts[0]] + accounts[1..];
      r
  }

  /** Under the primary key, looking an account up by its id finds it. */
  lemma AccountByIdFinds(accounts: seq<Account>, a: Account)
    requires UniqueAccounts(accounts)
    requires a in accounts
    ensures AccountById(accounts, a.id) == Some(a)
  {
    var r := AccountById(accounts, a.id);
    var i :| 0 <= i < |accounts| && accounts[i] == a;
    var j :| 0 <= j < |accounts| && accounts[j] == r.value;
    assert i == j;
  }

  /** Under the unique name constraint, looking an account up by its name finds it. */
  lemma AccountByNameFinds(accounts: seq<Account>, a: Account)
    requires UniqueAccounts(accounts)
    requires a in accounts
    ensures AccountByName(accounts, a.name) == Some(a)
  {
    var r := AccountByName(accounts, a.name);
    var i :| 0 <= i < |accounts| && accounts[i] == a;
    var j :| 0 <= j < |accounts| && accounts[j] == r.value;
    assert i == j;
  }
}

=== FILE: text.dfy ===
/** The string operations the upload route performs: JavaScript's
    `String.prototype.split` on one character, the last-segment extension
    of a file name, and the decimal rendering of a millisecond clock. */
module Text {

  /** `s.split(sep)` for a one-character separator: at least one part, and
      no part contains the separator. */
  function Split(s: string, sep: char): (r: seq<string>)
    ensures |r| >= 1
    ensures forall i :: 0 <= i < |r| ==> sep !in r[i]
  {
    if s == [] then [[]]
    else
      var rest := Split(s[1..], sep);
      if s[0] == sep then [[]] + rest
      else [[s[0]] + rest[0]] + rest[1..]
  }

  /** `parts.join(sep)`. */
  function Join(parts: seq<string>, sep: char): string {
    if parts == [] then []
    else if |parts| == 1 then parts[0]
    else parts[0] + [sep] + Join(parts[1..], sep)
  }

  /** Splitting and joining again gives back the original string. */
  lemma {:induction false} JoinSplit(s: string, sep: char)
    ensures Join(Split(s, sep), sep) == s
  {
    if s != [] {
      JoinSplit(s[1..], sep);
      var rest := Split(s[1..], sep);
      if s[0] == sep {
        assert Split(s, sep) == [[]] + rest;
        assert s == [sep] + s[1..];
      } else {
        var r := Split(s, sep);
        assert r == [[s[0]] + rest[0]] + rest[1..];
        if |rest| == 1 {
          assert s == [s[0]] + s[1..];
        } else {
          assert rest == [rest[0]] + rest[1..];
          assert Join(rest, sep) == rest[0] + [sep] + Join(rest[1..], sep);
          assert r[1..] == rest[1..];
          assert s == [s[0]] + s[1..];
        }
      }
    }
  }

  /** Joining separator-free parts and splitting again gives back the parts. */
  lemma {:induction false} SplitJoin(parts: seq<string>, sep: char)
    requires |parts| >= 1
    requires forall i :: 0 <= i < |parts| ==> sep !in parts[i]
    ensures Split(Join(parts, sep), sep) == parts
  {
    if |parts| == 1 {
      SplitWithoutSeparator(parts[0], sep);
    } else {
      SplitJoin(parts[1..], sep);
      SplitAfterSeparator(parts[0], Join(parts[1..], sep), sep);
    }
  }

  /** A string without the separator is one part. */
  lemma {:induction false} SplitWithoutSeparator(s: string, sep: char)
    requires sep !in s
    ensures Split(s, sep) == [s]
  {
    if s != [] {
      SplitWithoutSeparator(s[1..], sep);
      assert s == [s[0]] + s[1..];
    }
  }

  /** A separator-free head followed by the separator starts a new part. */
  lemma {:induction false} SplitAfterSeparator(head: string, tail: string, sep: char)
    requires sep !in head
    ensures Split(head + [sep] + tail, sep) == [head] + Split(tail, sep)
  {
    var s := head + [sep] + tail;
    if head == [] {
      assert s[1..] == tail;
    } else {
      SplitAfterSeparator(head[1..], tail, sep);
      assert s[1..] == head[1..] + [sep] + tail;
      assert head == [head[0]] + head[1..];
    }
  }

  /** Two separator-free strings joined by the separator split into them. */
  lemma SplitInTwo(a: string, b: string, sep: char)
    requires sep !in a && sep !in b
    ensures Split(a + [sep] + b, sep) == [a, b]
  {
    SplitAfterSeparator(a, b, sep);
    SplitWithoutSeparator(b, sep);
  }

  /** `name.split('.').at(-1)`: the text after the last dot, or the whole
      name when it has no dot. */
  function Extension(name: string): (r: string)
    ensures '.' !in r
    ensures |r| <= |name| && name[|name| - |r|..] == r
    ensures r == name || name[|name| - |r| - 1] == '.'
  {
    var parts := Split(name, '.');
    LastPartIsSuffix(name, '.');
    parts[|parts| - 1]
  }

  /** The last part of a split is a suffix of the string, preceded by the
      separator unless it is the whole string. */
  lemma LastPartIsSuffix(s: string, sep: char)
    ensures var last := Split(s, sep)[|Split(s, sep)| - 1];
      && |last| <= |s| && s[|s| - |last|..] == last
      && (last == s || s[|s| - |last| - 1] == sep)
  {
    var parts := Split(s, sep);
    JoinSplit(s, sep);
    var last := parts[|parts| - 1];
    if |parts| > 1 {
      var init := parts[..|parts| - 1];
      assert parts == init + [last];
      JoinAppendLast(init, last, sep);
      var pre := Join(init, sep) + [sep];
      assert s == pre + last;
      assert s[|s| - |last|..] == last;
      assert s[|s| - |last| - 1] == sep;
    }
  }

  /** The extension of `prefix.ext` is `ext` whenever `ext` has no dot,
      whatever dots the prefix holds. */
  lemma ExtensionAfterDot(prefix: string, ext: string)
    requires '.' !in ext
    ensures Extension(prefix + "." + ext) == ext
  {
    var j := Join(Split(prefix, '.') + [ext], '.');
    JoinAppendLast(Split(prefix, '.'), ext, '.');
    JoinSplit(prefix, '.');
    SplitJoin(Split(prefix, '.') + [ext], '.');
    assert j == prefix + "." + ext;
  }

  /** Joining with one more part appends the separator and the part. */
  lemma {:induction false} JoinAppendLast(parts: seq<string>, last: string, sep: char)
    requires |parts| >= 1
    ensures Join(parts + [last], sep) == Join(parts, sep) + [sep] + last
  {
    if |parts| > 1 {
      JoinAppendLast(parts[1..], last, sep);
      assert (parts + [last])[1..] == parts[1..] + [last];
    }
  }

  // -----------------------------------------------------------------------
  // Decimal rendering of a clock value
  // -----------------------------------------------------------------------

  predicate IsDigit(c: char) {
    '0' <= c <= '9'
  }

  predicate AllDigits(s: string) {
    forall i :: 0 <= i < |s| ==> IsDigit(s[i])
  }

  function DigitChar(d: nat): (c: char)
    requires d < 10
    ensures IsDigit(c)
  {
    ('0' as int + d) as char
  }

  function DigitValue(c: char): nat
    requires IsDigit(c)
  {
    c as int - '0' as int
  }

  /** The decimal digits `${n}` produces for an integral number. */
  function Decimal(n: nat): (r: string)
    ensures |r| >= 1 && AllDigits(r)
    ensures |r| > 1 ==> r[0] != '0'
  {
    if n < 10 then [DigitChar(n)]
    else Decimal(n / 10) + [DigitChar(n % 10)]
  }

  /** Reads a string of digits as a number. */
  function ParseDecimal(s: string): nat
    requires AllDigits(s)
  {
    if s == [] then 0
    else 10 * ParseDecimal(s[..|s| - 1]) + DigitValue(s[|s| - 1])
  }

  /** Reading back the rendered digits gives the number. */
  lemma {:induction false} DecimalRoundTrip(n: nat)
    ensures ParseDecimal(Decimal(n)) == n
  {
    if n >= 10 {
      DecimalRoundTrip(n / 10);
      var d := Decimal(n);
      assert d[..|d| - 1] == Decimal(n / 10);
    }
  }
}

=== FILE: wrappers.dfy ===
/** Absent-or-present values and success-or-failure values, used for the
    queries that may find nothing and the statements that may fail. */
module Wrappers {

  /** A row that may be missing: the `undefined` of `const [row] = rows`. */
  datatype Option<+T> = None | Some(value: T) {

    /** The value, or `default` when absent. */
    function GetOr(default: T): T {
      match this
      case Some(v) => v
      case None => default
    }
  }

  /** The outcome of a statement: its value, or the error it raised. */
  datatype Result<+R, +E> = Success(value: R) | Failure(error: E)
}
